=== FILE: README.md ===
# Blog ingestion command, modelled in Dafny

The blog keeps its posts as Markdown files. The management command `updateblog` reads every
`.md` file in the blog directory and does the following:

- It splits off the `---` front-matter header and rewrites the body. Fenced code blocks become
  DaisyUI `mockup-code` blocks, and `## ` headings become `<h2>` anchors.
- It collects the file's table of contents (the level-2 headings after the header) and its
  intro (the text under `## Intro`).
- It creates or updates the `BlogPost` stored under the slug of the title. Its `Tag` and
  `TableOfContent` relations are filled through `get_or_create`.
- At the end it deletes the posts no file describes and the tags no post uses.

The whole command runs inside one `try`. The first exception ends the run, and whatever was
already written stays.

The model is split into these modules:

- `Text`: the Python string primitives the command relies on: `strip`, `split`, `join`,
  `startswith` and the `\s` class.
- `CodeBlocks`: `process_code_blocks`.
- `Headings`: `process_table_of_contents`, the heading substitution.
- `TableOfContents`: `extract_table_of_contents`.
- `Intro`: `extract_intro_content`.
- `FrontMatter`: `extract_front_matter`.
- `Store`: the three models and the ORM calls the command makes. The database is an immutable
  `Catalog` value. Each operation returns `Done(catalog)` or `Aborted(catalog, error)`; the
  aborted catalog holds the writes made before the failure.
- `Reconcile`: `handle`, `process_markdown_files`, `update_or_create_post`, `update_post`,
  `create_post`, `remove_missing_blog_posts` and `remove_orphaned_tags`.

Some parts of the original are not modelled as code but as inputs:

- Django's `slugify` is a function parameter (`Slugifier`). Every result holds for any slug
  function.
- The directory listing is a sequence of `File(name, text)` values, in the order
  `os.listdir` returns them.
- Reading and parsing a file has no effect on the database. The loop is therefore modelled as
  reading every entry (`ReadAll`) and then running over the results (`Run`). Each item is
  processed in turn, and the run stops at the first failure.

## Model

| member | source | states |
|---|---|---|
| Text.Lines | blogapp/management/commands/updateblog.py:82 | splitting on newlines gives lines without a newline; they join back to the text, and there is one more line than there are newlines |
| Text.JoinSplit | blogapp/management/commands/updateblog.py:38 | joining the pieces of a split with the same separator gives back the text |
| Text.SplitJoin | blogapp/management/commands/updateblog.py:57 | splitting a join of pieces that do not contain the separator character gives back the pieces |
| Text.StripEmpty | blogapp/management/commands/updateblog.py:110 | `strip` gives the empty string exactly when the text is all whitespace |
| Text.StripEnds | blogapp/management/commands/updateblog.py:18 | a stripped string is empty or neither starts nor ends with whitespace |
| Text.StripPadded | blogapp/management/commands/updateblog.py:18 | whitespace around a string with clean ends is exactly what `strip` removes |
| CodeBlocks.DaisyClass | blogapp/management/commands/updateblog.py:26-41 | every language, listed or not, gets the class `mockup-code` |
| CodeBlocks.MatchFence | blogapp/management/commands/updateblog.py:34 | a match is exactly: a fence, a non-empty run of word characters, a newline, a body that ends at the first closing fence, and the rest |
| CodeBlocks.TransformProse | blogapp/management/commands/updateblog.py:63 | text without backticks passes the substitution unchanged, and the scan resumes after it |
| CodeBlocks.TransformProseBeforeFence | blogapp/management/commands/updateblog.py:63 | prose with no run of three backticks, followed by the end of the text or by a fence, passes unchanged and the scan resumes at the fence |
| CodeBlocks.TransformSegments | blogapp/management/commands/updateblog.py:63 | a document made of fenced blocks and prose with no run of three backticks, no two prose pieces adjacent, becomes the prose with each block replaced by its HTML |
| CodeBlocks.FenceFreeUnchanged | blogapp/management/commands/updateblog.py:63 | a text with no run of three backticks passes the code-block substitution unchanged |
| CodeBlocks.RenderBlockShape | blogapp/management/commands/updateblog.py:36-60 | a block renders as the opening div, one `<pre>` line per code line (blank lines included), and the closing div; the `$` prefix appears exactly for bash |
| CodeBlocks.RenderRoundTrip | blogapp/management/commands/updateblog.py:36-60 | reading a rendered block back gives its code body: rendering loses nothing |
| Headings.MatchHeading | blogapp/management/commands/updateblog.py:74 | the heading pattern matches at a line start exactly when the line starts with `##` followed by whitespace |
| Headings.HeadingText | blogapp/management/commands/updateblog.py:89-93 | a line has a heading text iff it is `##` plus whitespace; the text is the line's suffix after the whitespace and does not start with whitespace |
| Headings.HeadingTextOf | blogapp/management/commands/updateblog.py:90-92 | `##`, whitespace, then text gives back exactly that text |
| Headings.ScanLine | blogapp/management/commands/updateblog.py:74 | a line that is not a bare `##` is rewritten on its own, whatever follows it |
| Headings.TransformByLines | blogapp/management/commands/updateblog.py:67-76 | when no line but the last is a bare `##`, the substitution turns each heading line into its anchor and keeps every other line |
| Headings.BareHeadingTakesNextLine | blogapp/management/commands/updateblog.py:74 | `\s+` crosses the newline, so `##` alone on a line takes the next line as its heading text |
| Headings.BareHeadingAlone | blogapp/management/commands/updateblog.py:89-93 | taken line by line, the same two lines both stay as they are |
| TableOfContents.DelimiterIsNotHeading | blogapp/management/commands/updateblog.py:83-89 | a `---` line never yields a heading |
| TableOfContents.RunBody | blogapp/management/commands/updateblog.py:88-93 | once both fences are passed, the loop appends the heading text of every heading line, in order |
| TableOfContents.RunSkips | blogapp/management/commands/updateblog.py:82-93 | before the second fence the loop only counts fences; it collects exactly the headings after the second fence |
| TableOfContents.ExtractIsHeadingsAfterFences | blogapp/management/commands/updateblog.py:78-95 | the table of contents equals the heading texts of the lines after the second `---` line (reference definition) |
| TableOfContents.ExtractAfterSecondFence | blogapp/management/commands/updateblog.py:78-95 | with the second fence at line j, the table of contents is the heading text of every heading line after j, duplicates kept |
| TableOfContents.ExtractWithoutFences | blogapp/management/commands/updateblog.py:83-88 | with fewer than two fence lines the table of contents is empty |
| TableOfContents.IntroIsAnEntry | blogapp/management/commands/updateblog.py:89-93 | `## Intro` is collected like any other heading |
| TableOfContents.HeadingTextsAt | blogapp/management/commands/updateblog.py:88-93 | the heading on line j is the entry whose index is the number of headings before line j |
| TableOfContents.ExtractAfterHeader | blogapp/management/commands/updateblog.py:78-95 | for a text made of a `---` line, header lines that are not `---`, a `---` line and a body, the table of contents is exactly the heading texts of the body |
| Intro.ScanCollects | blogapp/management/commands/updateblog.py:101-108 | once started, every line up to the first closing `## ` heading is kept with its newline, except repeated `## Intro` lines |
| Intro.ExtractBetween | blogapp/management/commands/updateblog.py:97-110 | the intro is the stripped text of the lines between the first `## Intro` line and the next other `## ` heading (or the end) |
| Intro.ExtractWithoutOpener | blogapp/management/commands/updateblog.py:97-110 | without a `## Intro` line the intro is empty |
| Intro.DeeperHeadingsKept | blogapp/management/commands/updateblog.py:102-108 | `###` headings neither open nor close the intro and are kept in it |
| FrontMatter.HeaderEnd | blogapp/management/commands/updateblog.py:12 | the header pattern matches iff the text starts with `---` and a newline and a later newline-`---`-newline exists; the header ends at the first such occurrence (the lazy group) |
| FrontMatter.ColonAtIsFirst | blogapp/management/commands/updateblog.py:17 | the key/value split happens at the first colon of the line, and a line without a colon has no split |
| FrontMatter.ExtractAsWritten | blogapp/management/commands/updateblog.py:10-23 | as written, a text with no header fails, and only such a text fails that way |
| FrontMatter.Extract | blogapp/management/commands/updateblog.py:10-23 | a text with no header gives an empty header and the text unchanged; otherwise it behaves as written |
| FrontMatter.ExtractHeader | blogapp/management/commands/updateblog.py:14-21 | the content is the rewritten body after the header; the only failure is a header line without a colon |
| FrontMatter.ParseHeaderFailsAt | blogapp/management/commands/updateblog.py:16-18 | the header fails at its first line without a colon, naming that line |
| FrontMatter.FoldKeys | blogapp/management/commands/updateblog.py:16-18 | the parsed header's keys are exactly the lines' stripped keys |
| FrontMatter.FoldLastWins | blogapp/management/commands/updateblog.py:16-18 | for a repeated key, the value of its last line wins |
| FrontMatter.RoundTrip | blogapp/management/commands/updateblog.py:10-23 | rendering clean entries and a body and then extracting gives back the entry keys, the last value for each key and the rewritten body |
| FrontMatter.FenceFreeBody | blogapp/management/commands/updateblog.py:20-21 | a body with no run of three backticks is rewritten by the heading substitution alone |
| FrontMatter.PlainTextFinding | blogapp/management/commands/updateblog.py:13-23 | on `Hello`, the code as written fails and the intended function returns an empty header and `Hello` |
| FrontMatter.EmptyHeaderFails | blogapp/management/commands/updateblog.py:15-17 | an empty header `---`/`---` fails on its one empty line |
| Store.Save | blogapp/models.py:47-49 | a successful save stores the post under the slug of its title, with the given columns |
| Store.SaveMoves | blogapp/models.py:47-49 | a save moves a renamed post to its new slug, with its relations; no other post changes |
| Store.SaveFails | blogapp/models.py:37-49 | a save fails exactly for a title over 100 characters, a slug over 150, or a slug held by another post; a failed save writes nothing |
| Store.GetOrCreateTag | blogapp/management/commands/updateblog.py:189 | fails exactly for a new name over 50 characters; on success the name is a tag, and a failure writes nothing |
| Store.GetOrCreateToc | blogapp/management/commands/updateblog.py:194 | fails exactly for a new entry whose content or slug is too long or whose slug another row holds; on success the entry is a row, and a failure writes nothing |
| Store.AddTagsDone | blogapp/management/commands/updateblog.py:188-190 | after the tag loop the post holds its earlier tags plus the listed names, and no other post changes |
| Store.AddTagsFails | blogapp/management/commands/updateblog.py:188-190 | the tag loop fails iff some listed name is new and too long |
| Store.AddTocsDone | blogapp/management/commands/updateblog.py:192-196 | after the entry loop the post holds its earlier entries plus one entry per heading, numbered from the start index; no other post changes |
| Store.AddTocsPresent | blogapp/management/commands/updateblog.py:192-196 | when every entry already exists, the entry loop cannot fail |
| Store.TocEntriesDistinct | blogapp/management/commands/updateblog.py:192-196 | entries numbered by position are all different, so a post gets one entry per heading even when headings repeat |
| Store.SlugCollides | blogapp/models.py:28 | when any row other than a heading's own entry, of any post and any position, already holds that heading's slug, the entry loop fails |
| Store.DuplicateHeadingSlugAborts | blogapp/models.py:28 | two headings with the same slug at different positions make the entry loop fail: the second insert meets the unique slug |
| Store.SetOfRepeated | blogapp/models.py:40 | a relation holds each row once: a list with a repeat has fewer distinct members than entries |
| Store.DeletePosts | blogapp/management/commands/updateblog.py:227-229 | exactly the posts whose slug is listed are deleted; the others and all tags and entries stay |
| Store.DeleteOrphanTags | blogapp/management/commands/updateblog.py:232-235 | exactly the tags some post uses stay |
| Store.SaveValid | blogapp/models.py:37-49 | a save keeps the schema invariants: key equals slug equals slugify(title), lengths in bounds, relations point at rows, entry slugs unique |
| Store.GetOrCreateTocValid | blogapp/models.py:25-28 | creating an entry keeps entry slugs unique and lengths in bounds |
| Store.AddTagsValid | blogapp/models.py:15-16 | the tag loop keeps the schema invariants, even when it fails |
| Store.AddTocsValid | blogapp/models.py:25-28 | the entry loop keeps the schema invariants, even when it fails |
| Store.DeleteValid | blogapp/models.py:37-45 | both deletions keep the schema invariants |
| Reconcile.ParseFile | blogapp/management/commands/updateblog.py:130-140 | a parsed file has a non-empty publish date, at least one tag, and the table of contents and intro of the whole file; parsing fails iff the header fails or the date is missing or empty, and in the second case with the date error |
| Reconcile.ParseFileFields | blogapp/management/commands/updateblog.py:131-135 | a parsed file takes its title from the header or `Untitled` when the key is missing, its dates and content from the header and body, and its tag list from the `Tags` value cut at `", "`: joining the tags back with `", "` gives that value, and a missing `Tags` gives the one empty tag |
| Reconcile.ParseRendered | blogapp/management/commands/updateblog.py:131-135 | a header with a title and a date reads back that title and date, an empty last-update date, the single empty tag, and the rewritten body |
| Reconcile.NoHeaderAborts | blogapp/management/commands/updateblog.py:131-140 | a file without a header fails in the code as written, and as intended fails at the date check |
| Reconcile.RewriteDone | blogapp/management/commands/updateblog.py:180-198 | a finished rewrite leaves the post with exactly the file's columns, tags and entries; no other post changes and nothing is removed |
| Reconcile.CreateDone | blogapp/management/commands/updateblog.py:203-225 | a finished create adds exactly one post, under the title's slug, holding the file's columns, tags and entries |
| Reconcile.UpdateOrCreateDone | blogapp/management/commands/updateblog.py:160-168 | afterwards the title's slug names a post; it mirrors the file unless the change check left an existing post alone; no other post changes |
| Reconcile.UpdateOrCreateGrows | blogapp/management/commands/updateblog.py:160-225 | posts, tags and entries only accumulate, failures included, and the only post that can appear is the file's |
| Reconcile.UpdateOrCreateValid | blogapp/management/commands/updateblog.py:160-225 | the schema invariants survive the write of one file, whether it finished or not |
| Reconcile.RewriteMirrored | blogapp/management/commands/updateblog.py:180-198 | rewriting a post that already mirrors its file changes nothing |
| Reconcile.MirroredNeedsWrite | blogapp/management/commands/updateblog.py:171-179 | on a post that mirrors its file, the change check fires iff the file lists some tag twice |
| Reconcile.UpdateOrCreateIdempotent | blogapp/management/commands/updateblog.py:160-201 | processing the same file again leaves the database as it was after the first time |
| Reconcile.UpdateOrCreateSettled | blogapp/management/commands/updateblog.py:160-201 | a file whose post already mirrors it, or whose change check does not fire, writes nothing |
| Reconcile.RenamedTagUnnoticed | blogapp/management/commands/updateblog.py:171-179 | the change check as written, with dates read as strings, compares relations by count: renaming the only tag, with nothing else changed, goes unseen |
| Reconcile.EarlierTagsStay | blogapp/management/commands/updateblog.py:171-179 | of two files with the same title, columns and counts but different tags, the second is skipped by the change check, so the post keeps the first file's tag |
| Reconcile.RunDone | blogapp/management/commands/updateblog.py:126-155 | a loop that goes through adds exactly the files' slugs to the posts and removes them from the pending set |
| Reconcile.RunGrows | blogapp/management/commands/updateblog.py:126-155 | the loop removes no post, tag or entry, wherever it stops |
| Reconcile.RunValid | blogapp/management/commands/updateblog.py:126-155 | the schema invariants hold wherever the loop stops |
| Reconcile.DeleteUnseen | blogapp/management/commands/updateblog.py:117-121 | deleting the pending slugs leaves exactly the posts the files produced |
| Reconcile.HandleMirrors | blogapp/management/commands/updateblog.py:114-122 | a completed run leaves exactly one post per slug the Markdown files describe, every tag in use, and the schema invariants intact |
| Reconcile.HandleAbortDeletesNothing | blogapp/management/commands/updateblog.py:114-124 | a run ended by an exception deletes nothing: every post, tag and entry from before is still there |
| Reconcile.HandleValid | blogapp/management/commands/updateblog.py:114-124 | entries are never deleted, and the schema invariants hold however the run ends |
| Reconcile.RunPresent | blogapp/management/commands/updateblog.py:156-157 | skipped entries play no part in the loop |
| Reconcile.OnlyMarkdownMatters | blogapp/management/commands/updateblog.py:127-157 | the run over all files is the run over the `.md` files alone |
| Reconcile.BadItemAborts | blogapp/management/commands/updateblog.py:131-140 | a file that fails to parse ends the loop, there or earlier |
| Reconcile.BadFileAborts | blogapp/management/commands/updateblog.py:139-140 | a Markdown file that fails to parse or has no publish date makes the run fail with no post deleted |
| Reconcile.RunAppend | blogapp/management/commands/updateblog.py:115-124 | the loop over a listing split in two is the first part, then the second part if the first went through: writes made before a failure stay |
| Reconcile.RunSettles | blogapp/management/commands/updateblog.py:126-158 | after a loop that goes through over files with distinct slugs, every file is settled in the resulting database |
| Reconcile.RunSettled | blogapp/management/commands/updateblog.py:126-158 | a loop over files that are all settled writes nothing and only removes their slugs from the pending set |
| Reconcile.HandleSettles | blogapp/management/commands/updateblog.py:114-124 | after a completed run over files with distinct slugs, every file is settled in the final database |
| Reconcile.HandleIdempotent | blogapp/management/commands/updateblog.py:114-124 | when the files' slugs are distinct, running the command again over the same files after a completed run changes nothing |
| Reconcile.AnchorsMatchToc | blogapp/management/commands/updateblog.py:131-136 | for a body with no fence and no bare `##` before its last line, the stored content is the body with each heading line turned into its anchor, and the table of contents is the body's headings in order |
| Reconcile.HeadingAnchorIsEntry | blogapp/management/commands/updateblog.py:67-74 | the anchor that replaces the n-th heading carries the slug of the n-th table-of-contents entry, and that entry has order n + 1 (lines 192-196) |

## Left out

- Reading the directory and the files, and writing messages to stdout. The listing and the
  file texts are inputs. The order of `os.listdir` is whatever order the sequence has.
- Django's `slugify` is a parameter. No property depends on what it computes.
- `\w` in the code-fence pattern is modelled as ASCII letters, digits and `_`. Python's
  pattern also accepts other Unicode word characters in a language name.
- Dates are kept as the strings the header gives. Django's `DateField` converts and validates
  them on save. A malformed date, or an empty `Last Update`, would be rejected there, and
  that check is Django code, not this command's.
- Reconcile.MirroredNeedsWrite: a post read back from the database holds a `date`, which never
  equals the file's string. So in the running command the change check fires for every
  existing post, and every existing post is rewritten. The model compares the strings. For a
  post that already mirrors its file the rewrite changes nothing (RewriteMirrored). For a post
  that passes the count check without mirroring its file the two differ: in
  RenamedTagUnnoticed the command renames the tag to `django` and then deletes `python` as an
  orphan, while the model keeps the post and `python` as they were.
- Store.SaveFails: `max_length` is modelled as a failing write, as a database that enforces
  VARCHAR lengths behaves. SQLite would store the long value.
- Database errors other than the ones named in `Error` (connection loss, locking) are not
  modelled.
- `Tag.name` carries no uniqueness constraint. Tags are modelled as a set of names, because
  this command only ever creates them through `get_or_create` by name.
- Headings.TransformByLines: stated only for documents where no line but the last is a bare
  `##`. In that case the substitution joins two lines into one anchor.
  BareHeadingTakesNextLine shows this on a concrete input.
- Reconcile.HandleMirrors: states which posts exist after a run. It does not state which file
  supplied each post's content when two files share a slug. UpdateOrCreateDone states it file
  by file: the later file rewrites the post, unless the change check finds the same columns
  and the same tag and entry counts. In that case the earlier file's tags and entries stay
  (EarlierTagsStay).
- Reconcile.HandleIdempotent: stated for files whose slugs are distinct. When two files share
  a slug, the later one rewrites the post, unless the change check finds the same columns and
  the same tag and entry counts; then the earlier file's tags and entries stay. A second run
  can then abort. For example, take a catalog with a post `T` that has one tag and the one
  entry (`Other`, 1, `Other`). File A has the post's title, content and dates, one tag, and the heading `Setup`,
  so the change check leaves the post alone. File B has the title `T`, other content, and the
  headings `Intro` and `Setup`. The first run rewrites the post from B, and `Setup` is then
  held by the entry (`Setup`, 2, `Setup`). In the second run the post differs from A, so A's
  rewrite inserts (`Setup`, 1, `Setup`), which meets the unique slug, and the run aborts.
- Reconcile.AnchorsMatchToc: stated for bodies with no run of three backticks, and with no
  bare `##` before the last line. A `## ` line inside a fenced block is still collected into
  the table of contents, but it is rendered as code, so no anchor carries its slug. A line
  that is `##` followed only by whitespace gives no entry (`##` alone) or an empty one (`## `),
  while the substitution takes the next line as its heading text (BareHeadingTakesNextLine).
- The `Subscriber` model, the views, forms and context processors do not take part in
  ingestion and are not part of this model.

## Findings

| source | as written | input that shows it | evidently intended | confidence | as-written member | corrected member |
|---|---|---|---|---|---|---|
| blogapp/management/commands/updateblog.py:13-23 | `content` is assigned only when the header pattern matches, but it is returned on every path, so a file without a header raises `UnboundLocalError` | the text `Hello` (FrontMatter.PlainTextFinding) | return an empty header and the text unchanged, as the initialised `front_matter = {}` suggests | not executed | FrontMatter.ExtractAsWritten | FrontMatter.Extract |

The pass uses the corrected `FrontMatter.Extract`. For the database the difference does not
matter: Reconcile.NoHeaderAborts shows that the corrected reading then fails at the date
check. Either way the run stops at that file, with the same catalog.

=== FILE: base.dfy ===
/** Failure-carrying wrappers shared by the parser and the reconciler. */
module Base {

  datatype Option<+T> = None | Some(value: T)

  /** The exceptions the ingestion command can raise inside its one try block. */
  datatype Error =
    | NoFrontMatter                          // the body is read unassigned when no header matches
    | HeaderLineWithoutColon(line: string)   // a header line without a colon has no key/value split
    | EmptyPublishDate                       // parsing the empty date string always raises
    | ValueTooLong(field: string, value: string)  // a column's max_length is exceeded
    | SlugTaken(slug: string)                // a unique slug column would be duplicated

  datatype Result<+T> = Success(value: T) | Failure(error: Error)
}

=== FILE: codeblocks.dfy ===
/** `process_code_blocks`: every fenced block  ```lang NEWLINE body ```  in a post body
    becomes a DaisyUI `mockup-code` div holding one `<pre>` per body line. */
module CodeBlocks {
  import opened Base
  import opened Text

  const Fence := "```"

  /** The class used when a language has no entry of its own. */
  const DefaultClass := "mockup-code"

  /** `language_classes`: every supported language maps to the same class. */
  const LanguageClasses: map<string, string> := map[
    "bash" := "mockup-code",
    "python" := "mockup-code",
    "html" := "mockup-code",
    "css" := "mockup-code",
    "js" := "mockup-code"
  ]

  const BashOpen := "<pre data-prefix=\"$\"><code>"
  const PlainOpen := "<pre><code>"
  const LineClose := "</code></pre>"
  const DivOpen := "<div class=\"mockup-code\">"
  const DivClose := "</div>"

  /** `language_classes.get(language, 'mockup-code')`: whatever the language, the class is `mockup-code`. */
  function DaisyClass(lang: string): (cls: string)
    ensures cls == DefaultClass
  {
    if lang in LanguageClasses then LanguageClasses[lang] else DefaultClass
  }

  /** One code line; only bash lines get the `$` prompt prefix. */
  function WrapLine(lang: string, line: string): string {
    (if lang == "bash" then BashOpen else PlainOpen) + line + LineClose
  }

  function WrapLines(lang: string, lines: seq<string>): (wrapped: seq<string>)
    ensures |wrapped| == |lines|
    ensures forall i :: 0 <= i < |lines| ==> wrapped[i] == WrapLine(lang, lines[i])
  {
    if lines == [] then [] else [WrapLine(lang, lines[0])] + WrapLines(lang, lines[1..])
  }

  /** `replace_code_block`: the HTML for one fenced block. */
  function RenderBlock(lang: string, body: string): string {
    "<div class=\"" + DaisyClass(lang) + "\">\n" + Join(WrapLines(lang, Lines(body)), "\n") + "\n" + DivClose
  }

  /** Reads a wrapped line back to the code it wraps. */
  function UnwrapLine(line: string): string {
    var open := if StartsWith(line, BashOpen) then BashOpen else PlainOpen;
    if StartsWith(line, open) && |open| + |LineClose| <= |line| && EndsWith(line, LineClose)
    then line[|open|..|line| - |LineClose|]
    else line
  }

  function UnwrapLines(lines: seq<string>): (code: seq<string>)
    ensures |code| == |lines|
    ensures forall i :: 0 <= i < |lines| ==> code[i] == UnwrapLine(lines[i])
  {
    if lines == [] then [] else [UnwrapLine(lines[0])] + UnwrapLines(lines[1..])
  }

  /** Reads a rendered block back to the code body it displays. */
  function UnrenderBlock(html: string): string {
    var lines := Lines(html);
    if |lines| < 3 then html else Join(UnwrapLines(lines[1..|lines| - 1]), "\n")
  }

  predicate NoBacktick(s: string) {
    forall i :: 0 <= i < |s| ==> s[i] != '`'
  }

  /** No three backticks in a row: single backticks, and so inline code spans, are allowed. */
  predicate NoFence(s: string) {
    forall i: nat :: i < |s| ==> !OccursAt(s, Fence, i)
  }

  /** A language tag: what `(\w+)` captures. */
  predicate IsLanguage(lang: string) {
    lang != [] && forall i :: 0 <= i < |lang| ==> IsWordChar(lang[i])
  }

  /** The lazy body `(.*?)` ends at the first fence: no fence starts inside `body`. */
  predicate ClosesAtEnd(body: string) {
    forall i: nat :: i < |body| ==> !OccursAt(body + Fence, Fence, i)
  }

  /** A fence, `n` characters, a newline and a fence at `q` cut `s` into five parts. */
  lemma FenceSplit(s: string, n: nat, q: nat)
    requires StartsWith(s, Fence) && 3 + n < |s| && s[3 + n] == '\n'
    requires 4 + n <= q && OccursAt(s, Fence, q)
    ensures s == Fence + s[3..3 + n] + "\n" + s[4 + n..q] + Fence + s[q + 3..]
  {
    assert s[..3] == Fence;
    assert s[q..q + 3] == Fence;
    assert s == s[..3] + s[3..3 + n] + [s[3 + n]] + s[4 + n..q] + s[q..q + 3] + s[q + 3..];
  }

  /** A non-empty run of word characters is a language name. */
  lemma WordRunIsLanguage(s: string, n: nat)
    requires n == WordRun(s) && n > 0
    ensures IsLanguage(s[..n])
  {
    WordRunStops(s);
    forall i | 0 <= i < n ensures IsWordChar(s[..n][i]) {
      assert s[..n][i] == s[i];
    }
  }

  /** The text between a start position and the first fence after it holds no fence
      before its end. */
  lemma BodyCloses(s: string, from: nat, q: nat)
    requires FindFrom(s, Fence, from) == Some(q)
    ensures ClosesAtEnd(s[from..q])
  {
    FindLeftmost(s, Fence, from);
    var body := s[from..q];
    assert body + Fence == s[from..q + 3];
    forall i: nat | i < |body| ensures !OccursAt(body + Fence, Fence, i) {
      SliceShift(s, from, q + 3, i, i + 3);
      assert !OccursAt(s, Fence, from + i);
    }
  }

  /** Length of the longest run of word characters at the start of `s` (greedy `\w+`). */
  function WordRun(s: string): (n: nat)
    ensures n <= |s|
  {
    if s != [] && IsWordChar(s[0]) then 1 + WordRun(s[1..]) else 0
  }

  /** The run is all word characters and stops at the end or before a character that is not. */
  lemma {:induction false} WordRunStops(s: string)
    ensures forall i :: 0 <= i < WordRun(s) ==> IsWordChar(s[i])
    ensures WordRun(s) == |s| || !IsWordChar(s[WordRun(s)])
    decreases |s|
  {
    if s != [] && IsWordChar(s[0]) {
      WordRunStops(s[1..]);
      assert forall i :: 1 <= i < WordRun(s) ==> s[i] == s[1..][i - 1];
    }
  }

  datatype FenceMatch = FenceMatch(lang: string, body: string, rest: string)

  /** The pattern  ```(\w+)\n(.*?)```  (dot matching newlines) tried at the start of `s`. */
  function MatchFence(s: string): (m: Option<FenceMatch>)
    ensures m.Some? ==> s == Fence + m.value.lang + "\n" + m.value.body + Fence + m.value.rest
    ensures m.Some? ==> IsLanguage(m.value.lang) && ClosesAtEnd(m.value.body)
  {
    if !StartsWith(s, Fence) then None
    else
      var n := WordRun(s[3..]);
      if n == 0 || 3 + n >= |s| || s[3 + n] != '\n' then None
      else match FindFrom(s, Fence, 4 + n)
        case None => None
        case Some(q) =>
          var lang, body, rest := s[3..3 + n], s[4 + n..q], s[q + 3..];
          FenceSplit(s, n, q);
          WordRunIsLanguage(s[3..], n);
          assert s[3..][..n] == lang;
          BodyCloses(s, 4 + n, q);
          Some(FenceMatch(lang, body, rest))
  }

  /** `re.sub(code_block_pattern, replace_code_block, content, flags=re.DOTALL)`:
      scan left to right, replacing each match and copying every other character. */
  function Transform(s: string): string
    decreases |s|
  {
    if s == [] then []
    else match MatchFence(s)
      case Some(m) => RenderBlock(m.lang, m.body) + Transform(m.rest)
      case None => [s[0]] + Transform(s[1..])
  }

  /** A body the lazy match closes exactly at its end. */
  lemma MatchFenceOf(lang: string, body: string, rest: string)
    requires IsLanguage(lang) && ClosesAtEnd(body)
    ensures MatchFence(Fence + lang + "\n" + body + Fence + rest) == Some(FenceMatch(lang, body, rest))
  {
    var s := Fence + lang + "\n" + body + Fence + rest;
    FenceParts(lang, body, rest);
    WordRunOf(lang, "\n" + body + Fence + rest);
    MatchFenceIn(s, lang, body, rest);
  }

  /** The match of a text laid out as a fenced block followed by `rest`. */
  lemma MatchFenceIn(s: string, lang: string, body: string, rest: string)
    requires lang != [] && ClosesAtEnd(body)
    requires StartsWith(s, Fence) && WordRun(s[3..]) == |lang| && 4 + |lang| + |body| + 3 <= |s|
    requires s[3 + |lang|] == '\n' && s[4 + |lang|..4 + |lang| + |body| + 3] == body + Fence
    requires s[3..3 + |lang|] == lang && s[4 + |lang|..4 + |lang| + |body|] == body
    requires s[4 + |lang| + |body| + 3..] == rest
    ensures MatchFence(s) == Some(FenceMatch(lang, body, rest))
  {
    var n := |lang|;
    FirstFenceAfter(s, 4 + n, body);
    MatchFenceAt(s, n, 4 + n + |body|);
  }

  /** Where the parts of a fenced block sit in its text. */
  lemma FenceParts(lang: string, body: string, rest: string)
    ensures var s := Fence + lang + "\n" + body + Fence + rest;
      var n, q := |lang|, 4 + |lang| + |body|;
      && StartsWith(s, Fence) && s[3..] == lang + ("\n" + body + Fence + rest) && s[3 + n] == '\n'
      && s[4 + n..q + 3] == body + Fence
      && s[3..3 + n] == lang && s[4 + n..q] == body && s[q + 3..] == rest
  {
    var s := Fence + lang + "\n" + body + Fence + rest;
    assert s[..3] == Fence;
  }

  /** The three steps of the match, taken one at a time. */
  lemma MatchFenceAt(s: string, n: nat, q: nat)
    requires StartsWith(s, Fence) && 3 <= |s| && WordRun(s[3..]) == n && n != 0
    requires 3 + n < |s| && s[3 + n] == '\n' && FindFrom(s, Fence, 4 + n) == Some(q)
    ensures MatchFence(s) == Some(FenceMatch(s[3..3 + n], s[4 + n..q], s[q + 3..]))
  {
  }

  /** A body that closes at its end, followed by a fence, is what `find` skips over. */
  lemma FirstFenceAfter(s: string, from: nat, body: string)
    requires ClosesAtEnd(body)
    requires from + |body| + 3 <= |s| && s[from..from + |body| + 3] == body + Fence
    ensures FindFrom(s, Fence, from) == Some(from + |body|)
  {
    var q := from + |body|;
    assert s[q..q + 3] == (body + Fence)[|body|..];
    forall i: nat | from <= i < q ensures !OccursAt(s, Fence, i) {
      SliceShift(s, from, q + 3, i - from, i - from + 3);
      assert !OccursAt(body + Fence, Fence, i - from);
    }
    FindIs(s, Fence, from, q);
  }

  lemma {:induction false} WordRunOf(w: string, t: string)
    requires forall i :: 0 <= i < |w| ==> IsWordChar(w[i])
    requires t != [] && !IsWordChar(t[0])
    ensures WordRun(w + t) == |w|
    decreases |w|
  {
    if w == [] {
      assert w + t == t;
    } else {
      assert (w + t)[1..] == w[1..] + t;
      WordRunOf(w[1..], t);
    }
  }

  /** Text without backticks passes through, and the scan resumes unchanged after it. */
  lemma {:induction false} TransformProse(p: string, t: string)
    requires NoBacktick(p)
    ensures Transform(p + t) == p + Transform(t)
    decreases |p|
  {
    if p == [] {
      assert p + t == t;
    } else {
      TransformCopiesFirst(p, t);
      assert NoBacktick(p[1..]) by {
        assert forall i :: 0 <= i < |p| - 1 ==> p[1..][i] == p[i + 1];
      }
      TransformProse(p[1..], t);
      ConcatAssoc([p[0]], p[1..], Transform(t));
      assert [p[0]] + p[1..] == p;
    }
  }

  /** Prose that does not start with a backtick gives up its first character. */
  lemma TransformCopiesFirst(p: string, t: string)
    requires p != [] && p[0] != '`'
    ensures Transform(p + t) == [p[0]] + Transform(p[1..] + t)
  {
    var s := p + t;
    TransformCopies(s);
    assert s[0] == p[0] && s[1..] == p[1..] + t;
  }

  /** Where no match starts, the first character is copied, so prose that passes from its
      second character on passes whole. */
  lemma ProseStep(p: string, t: string)
    requires p != [] && MatchFence(p + t).None?
    requires Transform(p[1..] + t) == p[1..] + Transform(t)
    ensures Transform(p + t) == p + Transform(t)
  {
    var s := p + t;
    assert Transform(s) == [s[0]] + Transform(s[1..]);
    TailOfConcat(p, t);
    Regroup(p, Transform(t));
  }

  lemma TailOfConcat(p: string, t: string)
    requires p != []
    ensures (p + t)[0] == p[0] && (p + t)[1..] == p[1..] + t
  {
  }

  /** Putting the first character back in front of the rest and what follows. */
  lemma Regroup(p: string, x: string)
    requires p != []
    ensures [p[0]] + (p[1..] + x) == p + x
  {
    assert [p[0]] + p[1..] == p;
  }

  /** A character that cannot open a fence is copied. */
  lemma TransformCopies(s: string)
    requires s != [] && s[0] != '`'
    ensures Transform(s) == [s[0]] + Transform(s[1..])
  {
    assert !StartsWith(s, Fence) by {
      assert |Fence| <= |s| ==> s[..3][0] == s[0];
    }
  }

  /** Prose with no fence in it passes through when the end of the text or a fence follows
      it: backticks at its end cannot join the next fence into a match, because a language
      name cannot start with a backtick. */
  lemma {:induction false} TransformProseBeforeFence(p: string, t: string)
    requires NoFence(p)
    requires t == [] || StartsWith(t, Fence)
    ensures Transform(p + t) == p + Transform(t)
    decreases |p|
  {
    if p == [] {
      assert p + t == t;
    } else {
      ProseDoesNotMatch(p, t);
      NoFenceTail(p);
      TransformProseBeforeFence(p[1..], t);
      ProseStep(p, t);
    }
  }

  /** A text without a fence comes through the substitution unchanged. */
  lemma FenceFreeUnchanged(s: string)
    requires NoFence(s)
    ensures Transform(s) == s
  {
    TransformProseBeforeFence(s, []);
    assert s + [] == s;
  }

  /** No match starts at the beginning of fence-free prose followed by the end or a fence. */
  lemma ProseDoesNotMatch(p: string, t: string)
    requires p != [] && NoFence(p)
    requires t == [] || StartsWith(t, Fence)
    ensures MatchFence(p + t).None?
  {
    var s := p + t;
    if StartsWith(s, Fence) {
      assert !OccursAt(p, Fence, 0);
      assert OccursAt(p, Fence, 0) == (s[..3] == Fence && |p| >= 3);
      assert s[3] == t[3 - |p|] == '`';
      assert s[3..][0] == '`';
    }
  }

  lemma NoFenceTail(p: string)
    requires p != [] && NoFence(p)
    ensures NoFence(p[1..])
  {
    forall i: nat ensures !OccursAt(p[1..], Fence, i) {
      if OccursAt(p[1..], Fence, i) {
        assert p[i + 1..i + 4] == p[1..][i..i + 3];
        assert OccursAt(p, Fence, i + 1);
      }
    }
  }

  /** A markdown body as the writer sees it: prose and fenced code. */
  datatype Segment = Prose(text: string) | Code(lang: string, body: string)

  predicate ValidSegment(seg: Segment) {
    match seg
    case Prose(text) => NoFence(text)
    case Code(lang, body) => IsLanguage(lang) && ClosesAtEnd(body)
  }

  /** Prose segments are maximal: between two of them there is always a fenced block. */
  predicate Separated(segs: seq<Segment>) {
    forall i :: 0 <= i < |segs| - 1 ==> segs[i].Code? || segs[i + 1].Code?
  }

  function Markdown(segs: seq<Segment>): string {
    if segs == [] then []
    else
      (match segs[0]
       case Prose(text) => text
       case Code(lang, body) => Fence + lang + "\n" + body + Fence)
      + Markdown(segs[1..])
  }

  /** The intended HTML: prose unchanged, each fenced block rendered. */
  function Html(segs: seq<Segment>): string {
    if segs == [] then []
    else
      (match segs[0]
       case Prose(text) => text
       case Code(lang, body) => RenderBlock(lang, body))
      + Html(segs[1..])
  }

  /** The scanner renders exactly the fenced blocks and copies the prose between them. */
  lemma {:induction false} TransformSegments(segs: seq<Segment>)
    requires forall i :: 0 <= i < |segs| ==> ValidSegment(segs[i])
    requires Separated(segs)
    ensures Transform(Markdown(segs)) == Html(segs)
    decreases |segs|
  {
    if segs != [] {
      assert Separated(segs[1..]) by {
        forall i | 0 <= i < |segs[1..]| - 1 ensures segs[1..][i].Code? || segs[1..][i + 1].Code? {
          assert segs[1..][i] == segs[i + 1] && segs[1..][i + 1] == segs[i + 2];
        }
      }
      TransformSegments(segs[1..]);
      var rest := Markdown(segs[1..]);
      match segs[0]
      case Prose(text) =>
        if segs[1..] != [] {
          assert segs[1..][0] == segs[1];
          MarkdownStartsWithFence(segs[1..]);
        }
        TransformProseBeforeFence(text, rest);
      case Code(lang, body) =>
        var s := Fence + lang + "\n" + body + Fence + rest;
        MatchFenceOf(lang, body, rest);
        assert Markdown(segs) == s;
    }
  }

  /** Markdown that begins with a block begins with a fence. */
  lemma MarkdownStartsWithFence(segs: seq<Segment>)
    requires segs != [] && segs[0].Code?
    ensures StartsWith(Markdown(segs), Fence)
  {
    var head := Fence + segs[0].lang + "\n" + segs[0].body + Fence;
    assert Markdown(segs) == head + Markdown(segs[1..]);
    assert Markdown(segs)[..3] == head[..3] == Fence;
  }

  /** The lines of a rendered block: the div, one wrapped line per body line, the closing div. */
  lemma RenderBlockLines(lang: string, body: string)
    ensures Lines(RenderBlock(lang, body)) == [DivOpen] + WrapLines(lang, Lines(body)) + [DivClose]
  {
    var all := [DivOpen] + WrapLines(lang, Lines(body)) + [DivClose];
    RenderBlockJoin(lang, body);
    BlockLinesOneLine(lang, Lines(body));
    SplitJoin(all, '\n');
  }

  /** A rendered block is its lines joined by newlines. */
  lemma RenderBlockJoin(lang: string, body: string)
    ensures Join([DivOpen] + WrapLines(lang, Lines(body)) + [DivClose], "\n") == RenderBlock(lang, body)
  {
    var wrapped := WrapLines(lang, Lines(body));
    JoinAppend([DivOpen], wrapped, "\n");
    JoinAppend([DivOpen] + wrapped, [DivClose], "\n");
    assert "<div class=\"" + DaisyClass(lang) + "\">\n" == DivOpen + "\n";
  }

  /** No line of a rendered block holds a newline. */
  lemma BlockLinesOneLine(lang: string, code: seq<Line>)
    ensures var all := [DivOpen] + WrapLines(lang, code) + [DivClose];
      forall i :: 0 <= i < |all| ==> '\n' !in all[i]
  {
    var all := [DivOpen] + WrapLines(lang, code) + [DivClose];
    forall i | 0 <= i < |all| ensures '\n' !in all[i] {
      if 0 < i < |all| - 1 {
        assert all[i] == WrapLine(lang, code[i - 1]);
        WrapLineOneLine(lang, code[i - 1]);
      } else {
        assert all[i] == DivOpen || all[i] == DivClose;
      }
    }
  }

  lemma WrapLineOneLine(lang: string, line: string)
    requires '\n' !in line
    ensures '\n' !in WrapLine(lang, line)
  {
    assert '\n' !in BashOpen && '\n' !in PlainOpen && '\n' !in LineClose;
  }

  /** Blank lines are kept, so a block always has one more `<pre>` than its body has
      newlines; `$` prefixes appear exactly for bash; the class is always `mockup-code`. */
  lemma RenderBlockShape(lang: string, body: string)
    ensures var lines := Lines(RenderBlock(lang, body));
      && |lines| == Count(body, '\n') + 3
      && lines[0] == DivOpen
      && lines[|lines| - 1] == DivClose
      && (forall i :: 1 <= i < |lines| - 1 ==>
            && lines[i] == WrapLine(lang, Lines(body)[i - 1])
            && StartsWith(lines[i], "<pre")
            && (StartsWith(lines[i], BashOpen) <==> lang == "bash"))
  {
    RenderBlockLines(lang, body);
    var code := Lines(body);
    var lines := Lines(RenderBlock(lang, body));
    forall i | 1 <= i < |lines| - 1
      ensures lines[i] == WrapLine(lang, code[i - 1])
      ensures StartsWith(lines[i], "<pre")
      ensures StartsWith(lines[i], BashOpen) <==> lang == "bash"
    {
      assert lines[i] == WrapLines(lang, code)[i - 1];
      WrapLinePrefix(lang, code[i - 1]);
    }
  }

  lemma WrapLinePrefix(lang: string, line: string)
    ensures StartsWith(WrapLine(lang, line), "<pre")
    ensures StartsWith(WrapLine(lang, line), BashOpen) <==> lang == "bash"
  {
    var w := WrapLine(lang, line);
    if lang == "bash" {
      assert w[..|BashOpen|] == BashOpen;
      assert w[..4] == BashOpen[..4];
    } else {
      assert w[..|PlainOpen|] == PlainOpen;
      assert w[..4] == PlainOpen[..4];
      assert w[4] == '>' && BashOpen[4] == ' ';
    }
  }

  lemma UnwrapWrap(lang: string, line: string)
    ensures UnwrapLine(WrapLine(lang, line)) == line
  {
    var w := WrapLine(lang, line);
    var open := if lang == "bash" then BashOpen else PlainOpen;
    assert w[..|open|] == open;
    assert w[|w| - |LineClose|..] == LineClose;
    if lang != "bash" {
      assert w[4] == '>' && BashOpen[4] == ' ';
    }
    assert w[|open|..|w| - |LineClose|] == line;
  }

  /** Reading a rendered block back gives its code body: rendering loses nothing. */
  lemma RenderRoundTrip(lang: string, body: string)
    ensures UnrenderBlock(RenderBlock(lang, body)) == body
  {
    RenderBlockLines(lang, body);
    var code := Lines(body);
    var wrapped := WrapLines(lang, code);
    var lines := Lines(RenderBlock(lang, body));
    assert lines[1..|lines| - 1] == wrapped;
    forall i | 0 <= i < |code| ensures UnwrapLines(wrapped)[i] == code[i] {
      UnwrapWrap(lang, code[i]);
    }
    assert UnwrapLines(wrapped) == code;
  }
}

=== FILE: frontmatter.dfy ===
/** `extract_front_matter`: the `---`-fenced `Key: Value` header of a post file, and its
    body passed through the code-block and heading rewrites. */
module FrontMatter {
  import opened Base
  import opened Text
  import CodeBlocks
  import Headings

  const Opening := "---\n"
  const Closing := "\n---\n"

  /** A parsed file: the header mapping and the rewritten body. */
  datatype Document = Document(header: map<string, string>, content: string)

  /** Where the lazy header group `(.*?)` ends: the first `\n---\n` after the opening
      fence, if the text starts with one. */
  function HeaderEnd(text: string): (p: Option<nat>)
    ensures p.Some? ==> StartsWith(text, Opening) && 4 <= p.value && OccursAt(text, Closing, p.value)
    ensures p.Some? ==> forall i: nat :: 4 <= i < p.value ==> !OccursAt(text, Closing, i)
    ensures p.None? ==> !StartsWith(text, Opening) || forall i: nat :: 4 <= i ==> !OccursAt(text, Closing, i)
  {
    FindLeftmost(text, Closing, 4);
    if StartsWith(text, Opening) then FindFrom(text, Closing, 4) else None
  }

  /** The index of the first colon in a line, if any. */
  function ColonAt(line: string): (r: Option<nat>)
    ensures r.Some? ==> r.value < |line| && line[r.value] == ':'
  {
    if line == [] then None
    else if line[0] == ':' then Some(0)
    else match ColonAt(line[1..]) case None => None case Some(c) => Some(c + 1)
  }

  predicate HasColon(line: string) {
    ColonAt(line).Some?
  }

  /** `line.split(':', 1)`, trimmed on both sides. */
  function SplitEntry(line: string): (kv: (string, string))
    requires HasColon(line)
  {
    var c := ColonAt(line).value;
    (Strip(line[..c]), Strip(line[c + 1..]))
  }

  /** The header lines folded into a mapping from left to right; the first line without a
      colon stops the fold. */
  function ParseHeader(lines: seq<string>, acc: map<string, string>): Result<map<string, string>>
    decreases |lines|
  {
    if lines == [] then Success(acc)
    else if !HasColon(lines[0]) then Failure(HeaderLineWithoutColon(lines[0]))
    else
      var kv := SplitEntry(lines[0]);
      ParseHeader(lines[1..], acc[kv.0 := kv.1])
  }

  /** The body rewrites, in the order the source applies them. */
  function Body(slugify: Slugifier, content: string): string {
    Headings.Transform(slugify, CodeBlocks.Transform(content))
  }

  /** Without a fence, only the heading rewrite changes the body. */
  lemma FenceFreeBody(slugify: Slugifier, body: string)
    requires CodeBlocks.NoFence(body)
    ensures Body(slugify, body) == Headings.Transform(slugify, body)
  {
    CodeBlocks.FenceFreeUnchanged(body);
  }

  /** The function as written: a file without a header fails, because the body is only
      assigned when the header pattern matches. */
  function ExtractAsWritten(slugify: Slugifier, text: string): (r: Result<Document>)
    ensures HeaderEnd(text).None? <==> r == Failure(NoFrontMatter)
  {
    match HeaderEnd(text)
    case None => Failure(NoFrontMatter)
    case Some(p) => ExtractHeader(slugify, text, p)
  }

  /** The function as the rest of the command expects it: a file without a header has an
      empty mapping and its text unchanged. */
  function Extract(slugify: Slugifier, text: string): (r: Result<Document>)
    ensures HeaderEnd(text).None? ==> r == Success(Document(map[], text))
    ensures HeaderEnd(text).Some? ==> r == ExtractAsWritten(slugify, text)
  {
    match HeaderEnd(text)
    case None => Success(Document(map[], text))
    case Some(p) => ExtractHeader(slugify, text, p)
  }

  /** The part both versions share: parse the header lines, rewrite the body. */
  function ExtractHeader(slugify: Slugifier, text: string, p: nat): (r: Result<Document>)
    requires 4 <= p && p + 5 <= |text|
    ensures r.Success? ==> r.value.content == Body(slugify, text[p + 5..])
    ensures r.Failure? ==> r.error.HeaderLineWithoutColon?
  {
    match ParseHeader(Split(Strip(text[4..p]), "\n"), map[])
    case Failure(e) => ParseHeaderError(Split(Strip(text[4..p]), "\n"), map[]); Failure(e)
    case Success(h) => Success(Document(h, Body(slugify, text[p + 5..])))
  }

  lemma {:induction false} ParseHeaderError(lines: seq<string>, acc: map<string, string>)
    requires ParseHeader(lines, acc).Failure?
    ensures ParseHeader(lines, acc).error.HeaderLineWithoutColon?
    decreases |lines|
  {
    if lines != [] && HasColon(lines[0]) {
      ParseHeaderError(lines[1..], acc[SplitEntry(lines[0]).0 := SplitEntry(lines[0]).1]);
    }
  }

  // The fold over the header lines.

  /** A header fails exactly at its first line without a colon. */
  lemma {:induction false} ParseHeaderFailsAt(lines: seq<string>, acc: map<string, string>, j: nat)
    requires j < |lines| && !HasColon(lines[j])
    requires forall i :: 0 <= i < j ==> HasColon(lines[i])
    ensures ParseHeader(lines, acc) == Failure(HeaderLineWithoutColon(lines[j]))
    decreases j
  {
    if j > 0 {
      var kv := SplitEntry(lines[0]);
      ParseHeaderFailsAt(lines[1..], acc[kv.0 := kv.1], j - 1);
    }
  }

  /** Every line has a colon, so the fold runs to the end. */
  predicate AllColon(lines: seq<string>)
    decreases |lines|
  {
    lines == [] || (HasColon(lines[0]) && AllColon(lines[1..]))
  }

  /** The key/value pairs of header lines that all have a colon. */
  function Entries(lines: seq<string>): (es: seq<(string, string)>)
    requires AllColon(lines)
    ensures |es| == |lines|
    decreases |lines|
  {
    if lines == [] then [] else [SplitEntry(lines[0])] + Entries(lines[1..])
  }

  /** Python's dict assignment in a loop: later pairs overwrite earlier ones. */
  function Fold(es: seq<(string, string)>, acc: map<string, string>): map<string, string>
    decreases |es|
  {
    if es == [] then acc else Fold(es[1..], acc[es[0].0 := es[0].1])
  }

  /** With a colon on every line, parsing is the fold of the lines' pairs. */
  lemma {:induction false} ParseHeaderIsFold(lines: seq<string>, acc: map<string, string>)
    requires AllColon(lines)
    ensures ParseHeader(lines, acc) == Success(Fold(Entries(lines), acc))
    decreases |lines|
  {
    if lines != [] {
      var kv := SplitEntry(lines[0]);
      ParseHeaderIsFold(lines[1..], acc[kv.0 := kv.1]);
      assert Entries(lines)[1..] == Entries(lines[1..]);
    }
  }

  function KeysOf(es: seq<(string, string)>): set<string>
    decreases |es|
  {
    if es == [] then {} else {es[0].0} + KeysOf(es[1..])
  }

  lemma {:induction false} KeysOfHas(es: seq<(string, string)>, i: nat)
    requires i < |es|
    ensures es[i].0 in KeysOf(es)
    decreases i
  {
    if i > 0 {
      KeysOfHas(es[1..], i - 1);
    }
  }

  lemma {:induction false} KeysOfOnly(es: seq<(string, string)>, k: string)
    requires forall j :: 0 <= j < |es| ==> es[j].0 != k
    ensures k !in KeysOf(es)
    decreases |es|
  {
    if es != [] {
      KeysOfOnly(es[1..], k);
    }
  }

  /** The fold's keys are the earlier keys and the pairs' keys; a key no pair has keeps
      its earlier value. */
  lemma {:induction false} FoldKeys(es: seq<(string, string)>, acc: map<string, string>)
    ensures Fold(es, acc).Keys == acc.Keys + KeysOf(es)
    ensures forall k :: k in acc && k !in KeysOf(es) ==> Fold(es, acc)[k] == acc[k]
    decreases |es|
  {
    if es != [] {
      FoldKeys(es[1..], acc[es[0].0 := es[0].1]);
    }
  }

  /** The pair at `i` is the last one with its key. */
  predicate LastWithKey(es: seq<(string, string)>, i: nat)
    requires i < |es|
  {
    forall j :: i < j < |es| ==> es[j].0 != es[i].0
  }

  /** For each key, the fold holds the value of the last pair with that key. */
  lemma {:induction false} FoldLastWins(es: seq<(string, string)>, acc: map<string, string>, i: nat)
    requires i < |es| && LastWithKey(es, i)
    ensures es[i].0 in Fold(es, acc) && Fold(es, acc)[es[i].0] == es[i].1
    decreases |es|
  {
    var tail := es[1..];
    var acc' := acc[es[0].0 := es[0].1];
    FoldKeys(es, acc);
    KeysOfHas(es, i);
    if i == 0 {
      KeysOfOnly(tail, es[0].0);
      FoldKeys(tail, acc');
    } else {
      assert tail[i - 1] == es[i];
      FoldLastWins(tail, acc', i - 1);
    }
  }

  // Rendering a header and reading it back.

  /** A key the header can carry through a round trip: non-empty, no surrounding
      whitespace, no colon or newline, and not starting with `-`. */
  predicate CleanKey(k: string) {
    && k != [] && !IsSpace(k[0]) && !IsSpace(k[|k| - 1]) && k[0] != '-'
    && forall i :: 0 <= i < |k| ==> k[i] != ':' && k[i] != '\n'
  }

  /** A value that survives a round trip: non-empty, no surrounding whitespace, no newline. */
  predicate CleanValue(v: string) {
    && v != [] && !IsSpace(v[0]) && !IsSpace(v[|v| - 1])
    && forall i :: 0 <= i < |v| ==> v[i] != '\n'
  }

  predicate CleanEntries(entries: seq<(string, string)>) {
    forall i :: 0 <= i < |entries| ==> CleanKey(entries[i].0) && CleanValue(entries[i].1)
  }

  function EntryLine(k: string, v: string): string {
    k + ": " + v
  }

  function EntryLines(entries: seq<(string, string)>): (lines: seq<string>)
    ensures |lines| == |entries|
  {
    if entries == [] then [] else [EntryLine(entries[0].0, entries[0].1)] + EntryLines(entries[1..])
  }

  /** Line `i` is entry `i` written out. */
  lemma {:induction false} EntryLinesAt(entries: seq<(string, string)>)
    ensures forall i :: 0 <= i < |entries| ==> EntryLines(entries)[i] == EntryLine(entries[i].0, entries[i].1)
    decreases |entries|
  {
    if entries != [] {
      EntryLinesAt(entries[1..]);
      var lines := EntryLines(entries);
      assert forall i :: 1 <= i < |entries| ==> lines[i] == EntryLines(entries[1..])[i - 1] && entries[i] == entries[1..][i - 1];
    }
  }

  /** A post file with the given header entries and body. */
  function Render(entries: seq<(string, string)>, body: string): string {
    Opening + Join(EntryLines(entries), "\n") + Closing + body
  }

  /** `split(':', 1)` cuts at the first colon: the index found holds a colon and none comes
      before it, and nothing is found only in a line without a colon. */
  lemma {:induction false} ColonAtIsFirst(line: string)
    ensures ColonAt(line).Some? ==>
      && line[ColonAt(line).value] == ':'
      && forall i :: 0 <= i < ColonAt(line).value ==> line[i] != ':'
    ensures ColonAt(line).None? ==> forall i :: 0 <= i < |line| ==> line[i] != ':'
    decreases |line|
  {
    if line != [] && line[0] != ':' {
      ColonAtIsFirst(line[1..]);
      assert forall i :: 1 <= i < |line| ==> line[i] == line[1..][i - 1];
    }
  }

  /** A colon with none before it is where the line splits. */
  lemma {:induction false} ColonAtFirst(line: string, j: nat)
    requires j < |line| && line[j] == ':'
    requires forall i :: 0 <= i < j ==> line[i] != ':'
    ensures ColonAt(line) == Some(j)
    decreases j
  {
    if j > 0 {
      ColonAtFirst(line[1..], j - 1);
    }
  }

  /** A clean entry line splits back into its key and value. */
  lemma EntryLineSplits(k: string, v: string)
    requires CleanKey(k) && CleanValue(v)
    ensures HasColon(EntryLine(k, v)) && SplitEntry(EntryLine(k, v)) == (k, v)
  {
    var line := EntryLine(k, v);
    EntryLineColon(k, v);
    assert line[..|k|] == k;
    assert line[|k| + 1..] == " " + v + "";
    StripClean(k);
    StripPadded(" ", v, "");
  }

  /** The first colon of an entry line is the one after the key. */
  lemma EntryLineColon(k: string, v: string)
    requires CleanKey(k)
    ensures ColonAt(EntryLine(k, v)) == Some(|k|)
  {
    var line := EntryLine(k, v);
    assert line[|k|] == ':';
    forall i | 0 <= i < |k| ensures line[i] != ':' {
      assert line[i] == k[i];
    }
    ColonAtFirst(line, |k|);
  }

  /** In a join of clean lines, a newline is never followed by `-`, and the text neither
      starts nor ends with whitespace. */
  lemma {:induction false} JoinShape(lines: seq<string>)
    requires |lines| >= 1
    requires forall i :: 0 <= i < |lines| ==> lines[i] != [] && lines[i][0] != '-'
    requires forall i :: 0 <= i < |lines| ==> OneLine(lines[i])
    ensures var t := Join(lines, "\n");
      && t != [] && t[0] == lines[0][0] && t[|t| - 1] == lines[|lines| - 1][|lines[|lines| - 1]| - 1]
      && forall j :: 0 <= j < |t| - 1 && t[j] == '\n' ==> t[j + 1] != '-'
    decreases |lines|
  {
    if |lines| > 1 {
      var l := lines[0];
      var rest := Join(lines[1..], "\n");
      JoinShape(lines[1..]);
      var t := l + "\n" + rest;
      assert Join(lines, "\n") == t;
      forall j | 0 <= j < |t| - 1 ensures t[j] == '\n' ==> t[j + 1] != '-' {
        assert j < |l| ==> t[j] == l[j];
        assert j == |l| ==> t[j + 1] == rest[0];
        assert j > |l| ==> t[j] == rest[j - |l| - 1] && t[j + 1] == rest[j - |l|];
      }
    }
  }

  /** Clean entry lines are non-empty, hold no newline and do not start with `-`. */
  lemma EntryLinesShape(entries: seq<(string, string)>)
    requires CleanEntries(entries)
    ensures forall i :: 0 <= i < |EntryLines(entries)| ==>
      var line := EntryLines(entries)[i];
      line != [] && line[0] != '-' && OneLine(line)
  {
    var lines := EntryLines(entries);
    EntryLinesAt(entries);
    forall i | 0 <= i < |lines| ensures lines[i] != [] && lines[i][0] != '-' && OneLine(lines[i]) {
      var line := lines[i];
      var k := entries[i].0;
      assert line == k + ": " + entries[i].1;
      assert line[0] == k[0];
      forall j | 0 <= j < |line| ensures line[j] != '\n' {
        assert j < |k| ==> line[j] == k[j];
        assert j >= |k| + 2 ==> line[j] == entries[i].1[j - |k| - 2];
      }
    }
  }

  /** The header of a rendered file ends at the closing fence after the entries. */
  lemma RenderHeaderEnd(entries: seq<(string, string)>, body: string)
    requires |entries| >= 1 && CleanEntries(entries)
    ensures HeaderEnd(Render(entries, body)) == Some(4 + |Join(EntryLines(entries), "\n")|)
  {
    var lines := EntryLines(entries);
    var h := Join(lines, "\n");
    var text := Render(entries, body);
    var p := 4 + |h|;
    EntryLinesShape(entries);
    JoinShape(lines);
    assert text == Opening + h + Closing + body;
    assert text[..4] == Opening;
    assert text[p..p + 5] == Closing;
    forall i: nat | 4 <= i < p ensures !OccursAt(text, Closing, i) {
      assert text[i] == h[i - 4];
      assert i + 1 < p ==> text[i + 1] == h[i - 3];
      assert i + 5 <= |text| ==> text[i..i + 5][0] == text[i] && text[i..i + 5][1] == text[i + 1];
    }
    FindIs(text, Closing, 4, p);
  }

  /** The rendered header text, stripped and split, gives back the entry lines. */
  lemma RenderedHeaderLines(entries: seq<(string, string)>)
    requires |entries| >= 1 && CleanEntries(entries)
    ensures Split(Strip(Join(EntryLines(entries), "\n")), "\n") == EntryLines(entries)
  {
    var lines := EntryLines(entries);
    HeaderTextClean(entries);
    LinesWithoutNewline(entries);
    SplitJoin(lines, '\n');
  }

  /** The joined entry lines have no whitespace at either end. */
  lemma HeaderTextClean(entries: seq<(string, string)>)
    requires |entries| >= 1 && CleanEntries(entries)
    ensures Strip(Join(EntryLines(entries), "\n")) == Join(EntryLines(entries), "\n")
  {
    var lines := EntryLines(entries);
    var n := |entries| - 1;
    EntryLinesAt(entries);
    EntryLineEnds(entries[0].0, entries[0].1);
    EntryLineEnds(entries[n].0, entries[n].1);
    JoinFirst(lines);
    JoinLast(lines);
    StripClean(Join(lines, "\n"));
  }

  /** A clean entry line starts with its key's first character and ends with its value's
      last one. */
  lemma EntryLineEnds(k: string, v: string)
    requires CleanKey(k) && CleanValue(v)
    ensures var line := EntryLine(k, v);
      line != [] && !IsSpace(line[0]) && !IsSpace(line[|line| - 1])
  {
    var line := EntryLine(k, v);
    assert line[0] == k[0] && line[|line| - 1] == v[|v| - 1];
  }

  /** A join begins with its first line's first character. */
  lemma JoinFirst(lines: seq<string>)
    requires |lines| >= 1 && lines[0] != []
    ensures var t := Join(lines, "\n"); t != [] && t[0] == lines[0][0]
  {
    if |lines| > 1 {
      assert Join(lines, "\n") == lines[0] + ("\n" + Join(lines[1..], "\n"));
    }
  }

  /** A join ends with its last line's last character. */
  lemma {:induction false} JoinLast(lines: seq<string>)
    requires |lines| >= 1 && lines[|lines| - 1] != []
    ensures var t := Join(lines, "\n");
      t != [] && t[|t| - 1] == lines[|lines| - 1][|lines[|lines| - 1]| - 1]
    decreases |lines|
  {
    if |lines| > 1 {
      JoinLast(lines[1..]);
      assert Join(lines, "\n") == (lines[0] + "\n") + Join(lines[1..], "\n");
    }
  }

  /** No entry line holds a newline. */
  lemma LinesWithoutNewline(entries: seq<(string, string)>)
    requires CleanEntries(entries)
    ensures forall i :: 0 <= i < |EntryLines(entries)| ==> '\n' !in EntryLines(entries)[i]
  {
    var lines := EntryLines(entries);
    EntryLinesShape(entries);
    forall i | 0 <= i < |lines| ensures '\n' !in lines[i] {
      assert OneLine(lines[i]);
    }
  }

  /** Each clean entry line splits back into its entry. */
  lemma EntryLinesSplit(entries: seq<(string, string)>)
    requires CleanEntries(entries)
    ensures AllColon(EntryLines(entries))
    ensures Entries(EntryLines(entries)) == entries
  {
    var lines := EntryLines(entries);
    EntryLinesAt(entries);
    forall i | 0 <= i < |lines| ensures HasColon(lines[i]) && SplitEntry(lines[i]) == entries[i] {
      EntryLineSplits(entries[i].0, entries[i].1);
    }
    EntriesOfSplits(lines, entries);
  }

  /** Lines that each split into the matching pair have those pairs as their entries. */
  lemma {:induction false} EntriesOfSplits(lines: seq<string>, entries: seq<(string, string)>)
    requires |lines| == |entries|
    requires forall i :: 0 <= i < |lines| ==> HasColon(lines[i]) && SplitEntry(lines[i]) == entries[i]
    ensures AllColon(lines) && Entries(lines) == entries
    decreases |lines|
  {
    if lines != [] {
      assert forall i :: 1 <= i < |lines| ==> lines[1..][i - 1] == lines[i] && entries[1..][i - 1] == entries[i];
      EntriesOfSplits(lines[1..], entries[1..]);
      assert entries == [entries[0]] + entries[1..];
    }
  }

  /** The rendered header text parses to the fold of the entries. */
  lemma RenderedHeaderParses(entries: seq<(string, string)>)
    requires |entries| >= 1 && CleanEntries(entries)
    ensures ParseHeader(Split(Strip(Join(EntryLines(entries), "\n")), "\n"), map[])
         == Success(Fold(entries, map[]))
  {
    RenderedHeaderLines(entries);
    EntryLinesSplit(entries);
    ParseHeaderIsFold(EntryLines(entries), map[]);
  }

  /** Rendering clean entries and a body, then extracting, gives back exactly the rendered
      keys, for each key the value of its last entry, and the rewritten body. */
  lemma RoundTrip(slugify: Slugifier, entries: seq<(string, string)>, body: string)
    requires |entries| >= 1 && CleanEntries(entries)
    ensures var r := Extract(slugify, Render(entries, body));
      && r.Success?
      && r.value.content == Body(slugify, body)
      && r.value.header.Keys == (set i | 0 <= i < |entries| :: entries[i].0)
      && forall i :: 0 <= i < |entries| && LastWithKey(entries, i) ==>
           r.value.header[entries[i].0] == entries[i].1
  {
    RenderExtract(slugify, entries, body);
    FoldSummary(entries);
  }

  /** Folding entries into an empty mapping keeps exactly their keys, each with the value
      of its last entry. */
  lemma FoldSummary(entries: seq<(string, string)>)
    ensures var m := Fold(entries, map[]);
      && m.Keys == (set i | 0 <= i < |entries| :: entries[i].0)
      && forall i :: 0 <= i < |entries| && LastWithKey(entries, i) ==> m[entries[i].0] == entries[i].1
  {
    FoldKeys(entries, map[]);
    forall i | 0 <= i < |entries| && LastWithKey(entries, i)
      ensures entries[i].0 in Fold(entries, map[]) && Fold(entries, map[])[entries[i].0] == entries[i].1
    {
      FoldLastWins(entries, map[], i);
    }
    KeysOfIsSet(entries);
  }

  /** Extracting a rendered file gives the fold of its entries and its rewritten body. */
  lemma RenderExtract(slugify: Slugifier, entries: seq<(string, string)>, body: string)
    requires |entries| >= 1 && CleanEntries(entries)
    ensures Extract(slugify, Render(entries, body))
         == Success(Document(Fold(entries, map[]), Body(slugify, body)))
  {
    var h := Join(EntryLines(entries), "\n");
    RenderHeaderEnd(entries, body);
    RenderParts(h, body);
    RenderedHeaderParses(entries);
  }

  lemma RenderParts(h: string, body: string)
    ensures var text := Opening + h + Closing + body;
      text[4..4 + |h|] == h && text[4 + |h| + 5..] == body
  {
    var text := Opening + h + Closing + body;
    assert text == Opening + (h + (Closing + body));
  }

  lemma {:induction false} KeysOfIsSet(es: seq<(string, string)>)
    ensures KeysOf(es) == (set i | 0 <= i < |es| :: es[i].0)
    decreases |es|
  {
    if es != [] {
      KeysOfIsSet(es[1..]);
      var s1 := set i | 0 <= i < |es| :: es[i].0;
      var s2 := set i | 0 <= i < |es[1..]| :: es[1..][i].0;
      forall k | k in s1 ensures k in {es[0].0} + s2 {
        var i :| 0 <= i < |es| && es[i].0 == k;
        if i > 0 {
          assert es[1..][i - 1] == es[i];
        }
      }
      forall k | k in s2 ensures k in s1 {
        var i :| 0 <= i < |es[1..]| && es[1..][i].0 == k;
        assert es[i + 1] == es[1..][i];
      }
    }
  }

  // The two versions of the function.

  /** As written, a file without a header fails; the intended version returns the text as
      it is, with no header. */
  lemma PlainTextFinding(slugify: Slugifier)
    ensures ExtractAsWritten(slugify, "Hello") == Failure(NoFrontMatter)
    ensures Extract(slugify, "Hello") == Success(Document(map[], "Hello"))
  {
    assert "Hello"[..4][0] == 'H';
  }

  /** An empty header (the two fences on consecutive lines) fails: its one line is empty and
      has no colon. */
  lemma EmptyHeaderFails(slugify: Slugifier, body: string)
    ensures Extract(slugify, Opening + Closing + body) == Failure(HeaderLineWithoutColon(""))
  {
    var text := Opening + Closing + body;
    assert text[4..9] == Closing;
    FindIs(text, Closing, 4, 4);
    assert text[4..4] == [];
    assert Split("", "\n") == [""];
    ParseHeaderFailsAt([""], map[], 0);
  }
}

=== FILE: headings.dfy ===
/** `process_table_of_contents`: the substitution of `^##\s+(.*)$` (multi-line mode) that
    turns level-2 headings into `<h2>` elements whose id is the heading's slug. */
module Headings {
  import opened Base
  import opened Text

  /** `replace_header`: the element a heading with text `text` becomes. */
  function Anchor(slugify: Slugifier, text: string): string {
    "<h2 id=\"" + slugify(text) + "\">" + text + "</h2>"
  }

  /** Length of the longest whitespace prefix: the greedy `\s+`, which also crosses newlines. */
  function SpaceRun(s: string): (n: nat)
    ensures n <= |s|
    ensures forall i :: 0 <= i < n ==> IsSpace(s[i])
    ensures n == |s| || !IsSpace(s[n])
  {
    if s != [] && IsSpace(s[0]) then 1 + SpaceRun(s[1..]) else 0
  }

  /** Length of the text before the first newline: the greedy `.*`, which stops at one. */
  function LineLength(s: string): (n: nat)
    ensures n <= |s|
    ensures OneLine(s[..n])
    ensures n == |s| || s[n] == '\n'
  {
    if s != [] && s[0] != '\n' then
      var m := LineLength(s[1..]);
      assert s[..1 + m] == [s[0]] + s[1..][..m];
      1 + m
    else 0
  }

  /** A heading match: `##`, the whitespace `\s+` took, the captured text, and what follows. */
  datatype HeadingMatch = HeadingMatch(gap: string, text: string, rest: string)

  /** `^##\s+(.*)$` tried at a line start. */
  function MatchHeading(s: string): (m: Option<HeadingMatch>)
    ensures m.Some? <==> |s| > 2 && s[..2] == "##" && IsSpace(s[2])
    ensures m.Some? ==> |m.value.rest| < |s|
  {
    if |s| > 2 && s[..2] == "##" && IsSpace(s[2]) then
      var k := 2 + SpaceRun(s[2..]);
      var e := k + LineLength(s[k..]);
      Some(HeadingMatch(s[2..k], s[k..e], s[e..]))
    else None
  }

  /** A heading match splits its input into `##`, the whitespace `\s+` took, the captured
      text and what follows. The text runs to the end of the line the whitespace ends on;
      it is empty only when the whitespace runs to the end of the input. */
  predicate IsSplit(s: string, m: HeadingMatch) {
    && s == "##" + m.gap + m.text + m.rest
    && m.gap != [] && AllSpace(m.gap)
    && (m.text == [] ==> m.rest == [])
    && (m.text != [] ==> !IsSpace(m.text[0]))
    && OneLine(m.text)
    && (m.rest == [] || m.rest[0] == '\n')
  }

  lemma MatchHeadingSplits(s: string)
    requires MatchHeading(s).Some?
    ensures IsSplit(s, MatchHeading(s).value)
  {
    var t := s[2..];
    var k := 2 + SpaceRun(t);
    var u := s[k..];
    var e := k + LineLength(u);
    var m := MatchHeading(s).value;
    assert m == HeadingMatch(s[2..k], s[k..e], s[e..]);
    assert s == s[..2] + s[2..k] + s[k..e] + s[e..];
    assert t[0] == s[2];
    assert AllSpace(s[2..k]) by {
      forall i | 0 <= i < k - 2 ensures IsSpace(s[2..k][i]) {
        assert s[2..k][i] == t[i];
      }
    }
    assert k < |s| ==> s[k] == t[k - 2] && !IsSpace(s[k]);
    assert e < |s| ==> s[e] == u[e - k] && s[e] == '\n';
    assert u[..e - k] == s[k..e];
    assert IsSpace('\n');
  }

  /** The decomposition in `IsSplit` determines the match. */
  lemma MatchHeadingOf(gap: string, text: string, rest: string)
    requires IsSplit("##" + gap + text + rest, HeadingMatch(gap, text, rest))
    ensures MatchHeading("##" + gap + text + rest) == Some(HeadingMatch(gap, text, rest))
  {
    var s := "##" + gap + text + rest;
    assert s[2..] == gap + (text + rest);
    SpaceRunOf(gap, text + rest);
    var k := 2 + |gap|;
    assert s[k..] == text + rest;
    LineLengthOf(text, rest);
    assert s[2..k] == gap;
    assert s[k..k + |text|] == text;
    assert s[k + |text|..] == rest;
  }

  lemma {:induction false} SpaceRunOf(w: string, t: string)
    requires AllSpace(w)
    requires t == [] || !IsSpace(t[0])
    ensures SpaceRun(w + t) == |w|
    decreases |w|
  {
    if w == [] {
      assert w + t == t;
    } else {
      assert (w + t)[1..] == w[1..] + t;
      SpaceRunOf(w[1..], t);
    }
  }

  lemma {:induction false} LineLengthOf(w: string, t: string)
    requires OneLine(w)
    requires t == [] || t[0] == '\n'
    ensures LineLength(w + t) == |w|
    decreases |w|
  {
    if w == [] {
      assert w + t == t;
    } else {
      assert (w + t)[1..] == w[1..] + t;
      LineLengthOf(w[1..], t);
    }
  }

  /** `re.sub(r'^##\s+(.*)$', replace_header, content, flags=re.MULTILINE)`. `atLineStart`
      records whether `^` can match here (start of input or just after a newline). A match
      always ends at a newline or at the end of the input, where `^` cannot match. */
  function Scan(slugify: Slugifier, s: string, atLineStart: bool): string
    decreases |s|
  {
    if s == [] then []
    else if atLineStart && MatchHeading(s).Some? then
      Anchor(slugify, MatchHeading(s).value.text) + Scan(slugify, MatchHeading(s).value.rest, false)
    else [s[0]] + Scan(slugify, s[1..], s[0] == '\n')
  }

  function Transform(slugify: Slugifier, s: string): string {
    Scan(slugify, s, true)
  }

  /** `re.search(r'^##\s+(.*)$', line)` on one line: the heading text, if the line is
      `##`, then whitespace, then the text. */
  function HeadingText(line: Line): (t: Option<string>)
    ensures t.Some? <==> |line| > 2 && line[..2] == "##" && IsSpace(line[2])
    ensures t.Some? ==>
      && |t.value| < |line| - 2
      && line[|line| - |t.value|..] == t.value
      && AllSpace(line[2..|line| - |t.value|])
      && (t.value == [] || !IsSpace(t.value[0]))
  {
    match MatchHeading(line)
    case None => None
    case Some(m) =>
      MatchHeadingSplits(line);
      LineRestIsEmpty(line, m);
      assert line[2..|line| - |m.text|] == m.gap;
      Some(m.text)
  }

  /** On a single line the match runs to the end of the line. */
  lemma LineRestIsEmpty(line: string, m: HeadingMatch)
    requires OneLine(line) && IsSplit(line, m)
    ensures m.rest == []
  {
    OneLineSuffix("##" + m.gap + m.text, m.rest);
  }

  lemma OneLineSuffix(a: string, b: string)
    requires OneLine(a + b)
    ensures OneLine(b)
  {
    assert forall i :: 0 <= i < |b| ==> b[i] == (a + b)[|a| + i];
  }

  /** A line `##`, whitespace, then text (nothing else) has exactly that text as its heading. */
  lemma HeadingTextOf(gap: string, text: string)
    requires gap != [] && AllSpace(gap) && OneLine(gap)
    requires OneLine(text)
    requires text == [] || !IsSpace(text[0])
    ensures OneLine("##" + gap + text)
    ensures HeadingText("##" + gap + text) == Some(text)
  {
    var line := "##" + gap + text;
    assert line == "##" + gap + text + [];
    MatchHeadingOf(gap, text, []);
    assert forall i :: 0 <= i < |line| ==> line[i] != '\n' by {
      forall i | 0 <= i < |line| ensures line[i] != '\n' {
        if i < 2 {
        } else if i < 2 + |gap| {
          assert line[i] == gap[i - 2];
        } else {
          assert line[i] == text[i - 2 - |gap|];
        }
      }
    }
  }

  /** One line as the substitution treats it when the line stands alone. */
  function AnchorLine(slugify: Slugifier, line: Line): string
  {
    match HeadingText(line)
    case Some(t) => Anchor(slugify, t)
    case None => line
  }

  function AnchorLines(slugify: Slugifier, lines: seq<Line>): (out: seq<string>)
    ensures |out| == |lines|
    ensures forall i :: 0 <= i < |lines| ==> out[i] == AnchorLine(slugify, lines[i])
  {
    if lines == [] then [] else [AnchorLine(slugify, lines[0])] + AnchorLines(slugify, lines[1..])
  }

  /** `##` followed only by whitespace: `\s+` then runs over the newline into the next line. */
  predicate IsBareHeading(line: string) {
    |line| >= 2 && line[..2] == "##" && AllSpace(line[2..])
  }

  /** Text with no newline is copied as long as no heading starts it. */
  lemma {:induction false} ScanCopy(slugify: Slugifier, p: string, u: string, atLineStart: bool)
    requires OneLine(p)
    requires atLineStart && p != [] ==> MatchHeading(p + u).None?
    ensures Scan(slugify, p + u, atLineStart) == p + Scan(slugify, u, atLineStart && p == [])
    decreases |p|
  {
    if p == [] {
      assert p + u == u;
    } else {
      var s := p + u;
      assert s[0] == p[0] && s[1..] == p[1..] + u;
      assert Scan(slugify, s, atLineStart) == [p[0]] + Scan(slugify, p[1..] + u, false);
      ScanCopy(slugify, p[1..], u, false);
      assert [p[0]] + p[1..] == p;
    }
  }

  lemma {:induction false} ScanNewline(slugify: Slugifier, rest: string, atLineStart: bool)
    ensures Scan(slugify, "\n" + rest, atLineStart) == "\n" + Scan(slugify, rest, true)
  {
    var s := "\n" + rest;
    assert |s| > 2 ==> s[..2][0] == '\n';
    assert s[1..] == rest;
  }

  /** A line that is not a bare heading is rewritten on its own, whatever follows it. */
  lemma {:induction false} ScanLine(slugify: Slugifier, line: Line, rest: string)
    requires !IsBareHeading(line)
    ensures Scan(slugify, line + "\n" + rest, true)
         == AnchorLine(slugify, line) + "\n" + Scan(slugify, rest, true)
  {
    var s := line + "\n" + rest;
    match MatchHeading(line)
    case Some(m) =>
      MatchHeadingSplits(line);
      LineRestIsEmpty(line, m);
      assert line[2..] == m.gap + m.text;
      assert s == "##" + m.gap + m.text + ("\n" + rest);
      MatchHeadingOf(m.gap, m.text, "\n" + rest);
      ScanNewline(slugify, rest, false);
    case None =>
      ScanLineCopied(slugify, line, rest);
  }

  lemma {:induction false} ScanLineCopied(slugify: Slugifier, line: Line, rest: string)
    requires !IsBareHeading(line) && MatchHeading(line).None?
    ensures Scan(slugify, line + "\n" + rest, true) == line + "\n" + Scan(slugify, rest, true)
  {
    if line == [] {
      assert line + "\n" + rest == "\n" + rest;
      ScanNewline(slugify, rest, true);
    } else {
      var u := "\n" + rest;
      assert line + "\n" + rest == line + u;
      ScanFullLineCopied(slugify, line, u);
      ScanNewline(slugify, rest, false);
      var r := Scan(slugify, rest, true);
      ConcatAssoc(line, "\n", r);
    }
  }

  lemma {:induction false} ScanFullLineCopied(slugify: Slugifier, line: Line, u: string)
    requires line != [] && !IsBareHeading(line) && MatchHeading(line).None?
    requires u == [] || u[0] == '\n'
    ensures Scan(slugify, line + u, true) == line + Scan(slugify, u, false)
  {
    NoHeadingAfterLine(line, u);
    ScanCopy(slugify, line, u, true);
  }

  /** A line that neither starts a heading nor is a bare `##` still does not once the rest
      of the input follows it. */
  lemma NoHeadingAfterLine(line: string, u: string)
    requires line != [] && !IsBareHeading(line) && MatchHeading(line).None?
    requires u == [] || u[0] == '\n'
    ensures MatchHeading(line + u).None?
  {
    var s := line + u;
    if |line| >= 3 {
      assert s[..2] == line[..2] && s[2] == line[2];
    } else if |line| == 2 {
      assert s[..2] == line;
      assert line[2..] == [];
    } else {
      assert |s| >= 2 ==> s[1] == u[0];
    }
  }

  lemma ScanLastLine(slugify: Slugifier, line: Line)
    ensures Scan(slugify, line, true) == AnchorLine(slugify, line)
  {
    match MatchHeading(line)
    case Some(m) =>
      MatchHeadingSplits(line);
      LineRestIsEmpty(line, m);
    case None =>
      assert line + [] == line;
      ScanCopy(slugify, line, [], true);
  }

  /** Line by line: when no line but the last is a bare heading, the substitution rewrites
      each heading line into its anchor and leaves every other line as it is. */
  lemma {:induction false} TransformByLines(slugify: Slugifier, lines: seq<Line>)
    requires |lines| >= 1
    requires forall i :: 0 <= i < |lines| - 1 ==> !IsBareHeading(lines[i])
    ensures Transform(slugify, Join(lines, "\n")) == Join(AnchorLines(slugify, lines), "\n")
    decreases |lines|
  {
    if |lines| == 1 {
      ScanLastLine(slugify, lines[0]);
    } else {
      var rest := Join(lines[1..], "\n");
      ScanLine(slugify, lines[0], rest);
      TransformByLines(slugify, lines[1..]);
      var out := AnchorLines(slugify, lines);
      assert out[1..] == AnchorLines(slugify, lines[1..]);
    }
  }

  /** A bare `##` line does not stay as it is: the heading text is taken from the next line,
      and the two lines become one anchor. */
  lemma BareHeadingTakesNextLine(slugify: Slugifier)
    ensures Transform(slugify, "##\nSetup") == Anchor(slugify, "Setup")
  {
    var s := "##\nSetup";
    assert s == "##" + "\n" + "Setup" + [];
    MatchHeadingOf("\n", "Setup", []);
    assert Scan(slugify, s, true) == Anchor(slugify, "Setup") + Scan(slugify, [], false);
  }

  /** Taken line by line, the same two lines would both stay as they are. */
  lemma BareHeadingAlone(slugify: Slugifier)
    ensures Join(AnchorLines(slugify, ["##", "Setup"]), "\n") == "##\nSetup"
  {
    var out := AnchorLines(slugify, ["##", "Setup"]);
    assert out[0] == AnchorLine(slugify, "##") == "##";
    assert out[1] == AnchorLine(slugify, "Setup") == "Setup";
    assert out == ["##"] + ["Setup"];
    JoinCons("##", ["Setup"], "\n");
  }
}

=== FILE: intro.dfy ===
/** `extract_intro_content`: the text under the `## Intro` heading, up to the next
    level-2 heading. */
module Intro {
  import opened Text

  /** A line that starts (or restarts) the intro. */
  predicate Opens(line: string) {
    StartsWith(line, "## Intro")
  }

  /** A line that ends a started intro: any other `## ` heading. */
  predicate Closes(line: string) {
    StartsWith(line, "## ") && !Opens(line)
  }

  /** The loop over the lines: `started` is `intro_started`, `acc` is `intro_content`.
      A closing line once started is the `break`. */
  function Scan(lines: seq<Line>, started: bool, acc: string): string
    decreases |lines|
  {
    if lines == [] then acc
    else if Opens(lines[0]) then Scan(lines[1..], true, acc)
    else if StartsWith(lines[0], "## ") then
      if started then acc else Scan(lines[1..], started, acc)
    else if started then Scan(lines[1..], started, acc + lines[0] + "\n")
    else Scan(lines[1..], started, acc)
  }

  /** The intro of a whole file, stripped. */
  function Extract(text: string): string {
    Strip(Scan(Lines(text), false, ""))
  }

  // Reference definition: the lines between the first opener and the next closer, minus
  // any further openers, each followed by a newline.

  /** Every line but the openers, each followed by a newline. */
  function Kept(lines: seq<Line>): string
    decreases |lines|
  {
    if lines == [] then ""
    else (if Opens(lines[0]) then "" else lines[0] + "\n") + Kept(lines[1..])
  }

  /** Before the first opener nothing is collected. */
  lemma {:induction false} ScanIdle(lines: seq<Line>, j: nat, acc: string)
    requires j < |lines| && Opens(lines[j])
    requires forall i :: 0 <= i < j ==> !Opens(lines[i])
    ensures Scan(lines, false, acc) == Scan(lines[j + 1..], true, acc)
    decreases j
  {
    if j > 0 {
      ScanIdle(lines[1..], j - 1, acc);
      assert lines[1..][j..] == lines[j + 1..];
    }
  }

  /** Without an opener nothing is collected at all. */
  lemma {:induction false} ScanIdleThrough(lines: seq<Line>, acc: string)
    requires forall i :: 0 <= i < |lines| ==> !Opens(lines[i])
    ensures Scan(lines, false, acc) == acc
    decreases |lines|
  {
    if lines != [] {
      ScanIdleThrough(lines[1..], acc);
    }
  }

  /** Once started, every line up to the first closer is kept (openers excepted). */
  lemma {:induction false} ScanCollects(lines: seq<Line>, k: nat, acc: string)
    requires k <= |lines|
    requires forall i :: 0 <= i < k ==> !Closes(lines[i])
    requires k == |lines| || Closes(lines[k])
    ensures Scan(lines, true, acc) == acc + Kept(lines[..k])
    decreases k
  {
    if k == 0 {
      assert lines[..k] == [];
    } else {
      var l := lines[0];
      assert lines[..k][1..] == lines[1..][..k - 1];
      ScanCollects(lines[1..], k - 1, if Opens(l) then acc else acc + l + "\n");
      assert (acc + l + "\n") + Kept(lines[1..][..k - 1]) == acc + ((l + "\n") + Kept(lines[1..][..k - 1]));
    }
  }

  /** The intro is the stripped text of the lines after the first opener `j`, up to the
      first closer `k` after it (or the end), leaving out any further opener. */
  lemma ExtractBetween(text: string, j: nat, k: nat)
    requires j < k <= |Lines(text)|
    requires Opens(Lines(text)[j])
    requires forall i :: 0 <= i < j ==> !Opens(Lines(text)[i])
    requires forall i :: j < i < k ==> !Closes(Lines(text)[i])
    requires k == |Lines(text)| || Closes(Lines(text)[k])
    ensures Extract(text) == Strip(Kept(Lines(text)[j + 1..k]))
  {
    ScanBetween(Lines(text), j, k);
  }

  /** `ExtractBetween` for a sequence of lines. */
  lemma ScanBetween(lines: seq<Line>, j: nat, k: nat)
    requires j < k <= |lines|
    requires Opens(lines[j])
    requires forall i :: 0 <= i < j ==> !Opens(lines[i])
    requires forall i :: j < i < k ==> !Closes(lines[i])
    requires k == |lines| || Closes(lines[k])
    ensures Scan(lines, false, "") == Kept(lines[j + 1..k])
  {
    ScanIdle(lines, j, "");
    var tail := lines[j + 1..];
    var between := lines[j + 1..k];
    assert tail[..k - j - 1] == between;
    assert forall i :: 0 <= i < k - j - 1 ==> tail[i] == lines[j + 1 + i];
    assert k - j - 1 == |tail| || Closes(tail[k - j - 1]);
    ScanCollects(tail, k - j - 1, "");
    assert "" + Kept(between) == Kept(between);
  }

  /** Without a `## Intro` line the intro is empty. */
  lemma ExtractWithoutOpener(text: string)
    requires forall i :: 0 <= i < |Lines(text)| ==> !Opens(Lines(text)[i])
    ensures Extract(text) == ""
  {
    ScanIdleThrough(Lines(text), "");
  }

  /** Deeper headings such as `### Setup` neither open nor close the intro, so they are kept. */
  lemma DeeperHeadingsKept(line: Line)
    requires StartsWith(line, "###")
    ensures !Opens(line) && !Closes(line)
    ensures Kept([line]) == line + "\n"
  {
    assert line[2] == '#';
    assert [line][1..] == [];
  }
}

=== FILE: reconcile.dfy ===
/** The `Command` of `updateblog.py`: read every Markdown file, create or update the post
    it describes, then delete the posts no file describes and the tags no post uses. */
module Reconcile {
  import opened Base
  import opened Text
  import CodeBlocks
  import Headings
  import FrontMatter
  import TableOfContents
  import Intro
  import opened Store

  /** A directory entry: its name and, for a Markdown file, its text. */
  datatype File = File(name: string, text: string)

  predicate IsMarkdown(f: File) {
    EndsWith(f.name, ".md")
  }

  /** What the command reads out of one file. */
  datatype Parsed = Parsed(fields: Fields, tags: seq<string>, toc: seq<string>)

  /** `dict.get(key, default)`. */
  function Get(header: map<string, string>, key: string, default: string): string {
    if key in header then header[key] else default
  }

  /** The body of the file loop up to the call that writes: the header, the defaults, the
      tag list, the table of contents and intro of the whole file, and the date check. */
  function ParseFile(slugify: Slugifier, text: string): (r: Result<Parsed>)
    ensures r.Success? ==> r.value.fields.publishDate != ""
    ensures r.Success? ==> r.value.toc == TableOfContents.Extract(text) && r.value.fields.intro == Intro.Extract(text)
    ensures r.Success? ==> |r.value.tags| >= 1
    ensures r.Failure? && FrontMatter.Extract(slugify, text).Success? ==> r.error == EmptyPublishDate
    ensures r.Failure? <==>
      FrontMatter.Extract(slugify, text).Failure? || Get(FrontMatter.Extract(slugify, text).value.header, "Published Date", "") == ""
  {
    match FrontMatter.Extract(slugify, text)
    case Failure(e) => Failure(e)
    case Success(doc) =>
      var date := Get(doc.header, "Published Date", "");
      if date == "" then Failure(EmptyPublishDate)
      else
        var fields := Fields(Get(doc.header, "Title", "Untitled"), Intro.Extract(text), doc.content,
                             date, Get(doc.header, "Last Update", ""));
        Success(Parsed(fields, Split(Get(doc.header, "Tags", ""), ", "), TableOfContents.Extract(text)))
  }

  /** The change check of `update_post`: columns compared by value, relations by count. */
  predicate NeedsWrite(p: Post, d: Parsed) {
    p.fields != d.fields || |p.toc| != |d.toc| || |p.tags| != |d.tags|
  }

  /** The rows a file gives its post. */
  function Entries(slugify: Slugifier, d: Parsed): seq<TocEntry> {
    TocEntries(slugify, d.toc, 1)
  }

  /** A post whose columns and relations are exactly what the file says. */
  predicate Mirrors(slugify: Slugifier, p: Post, d: Parsed) {
    p.fields == d.fields && p.tags == SetOf(d.tags) && p.toc == SetOf(Entries(slugify, d))
  }

  /** The write branch of `update_post`: clear both relations, add the tags, add the
      entries numbered from 1, save. */
  function Rewrite(slugify: Slugifier, c: Catalog, key: string, d: Parsed): (r: Outcome)
    requires key in c.posts
  {
    match AddTags(ClearRelations(c, key), key, d.tags)
    case Aborted(c1, e) => Aborted(c1, e)
    case Done(c1) =>
      match AddTocs(slugify, c1, key, d.toc, 1)
      case Aborted(c2, e) => Aborted(c2, e)
      case Done(c2) => Save(slugify, c2, Some(key), d.fields)
  }

  /** `update_post`: nothing happens when the check finds no change. */
  function UpdatePost(slugify: Slugifier, c: Catalog, key: string, d: Parsed): Outcome
    requires key in c.posts
  {
    if NeedsWrite(c.posts[key], d) then Rewrite(slugify, c, key, d) else Done(c)
  }

  /** `create_post`: save, add the entries, add the tags, save again. */
  function CreatePost(slugify: Slugifier, c: Catalog, d: Parsed): Outcome {
    var s := slugify(d.fields.title);
    match Save(slugify, c, None, d.fields)
    case Aborted(c1, e) => Aborted(c1, e)
    case Done(c1) =>
      match AddTocs(slugify, c1, s, d.toc, 1)
      case Aborted(c2, e) => Aborted(c2, e)
      case Done(c2) =>
        match AddTags(c2, s, d.tags)
        case Aborted(c3, e) => Aborted(c3, e)
        case Done(c3) => Save(slugify, c3, Some(s), d.fields)
  }

  /** `update_or_create_post`: the post is looked up by the slug of the file's title in the
      current database, so it sees posts written earlier in the same pass. */
  function UpdateOrCreate(slugify: Slugifier, c: Catalog, d: Parsed): Outcome {
    var s := slugify(d.fields.title);
    if s in c.posts then UpdatePost(slugify, c, s, d) else CreatePost(slugify, c, d)
  }

  /** The state of the pass: the catalog (or the failure) and the slugs not yet seen. */
  datatype Pass = Pass(outcome: Outcome, pending: set<string>)

  /** What the loop body makes of a directory entry before it writes: nothing for a file
      that is not Markdown, else the parse of its text. Reading and parsing have no effect
      on the database, so the loop is the same whether they happen up front or in turn. */
  function Read(slugify: Slugifier, f: File): Option<Result<Parsed>> {
    if IsMarkdown(f) then Some(ParseFile(slugify, f.text)) else None
  }

  function ReadAll(slugify: Slugifier, files: seq<File>): (items: seq<Option<Result<Parsed>>>)
    ensures |items| == |files|
    decreases |files|
  {
    if files == [] then [] else [Read(slugify, files[0])] + ReadAll(slugify, files[1..])
  }

  /** One iteration of `process_markdown_files`. Other files are skipped; the slug is
      discarded from the pending set before the write. */
  function ProcessItem(slugify: Slugifier, c: Catalog, pending: set<string>, item: Option<Result<Parsed>>): Pass {
    match item
    case None => Pass(Done(c), pending)
    case Some(Failure(e)) => Pass(Aborted(c, e), pending)
    case Some(Success(d)) => Pass(UpdateOrCreate(slugify, c, d), pending - {slugify(d.fields.title)})
  }

  /** The loop, in directory order; the first exception ends it. */
  function Run(slugify: Slugifier, c: Catalog, pending: set<string>, items: seq<Option<Result<Parsed>>>): Pass
    decreases |items|
  {
    if items == [] then Pass(Done(c), pending)
    else
      var p := ProcessItem(slugify, c, pending, items[0]);
      if p.outcome.Aborted? then p
      else Run(slugify, p.outcome.catalog, p.pending, items[1..])
  }

  /** `process_markdown_files`. */
  function ProcessFiles(slugify: Slugifier, c: Catalog, pending: set<string>, files: seq<File>): Pass {
    Run(slugify, c, pending, ReadAll(slugify, files))
  }

  /** The slugs of the posts as the command first reads them. */
  function PostSlugs(c: Catalog): set<string> {
    set k | k in c.posts :: c.posts[k].slug
  }

  /** `handle`: process the files, then delete the posts whose slug no file produced and
      the tags left without a post. An exception skips both deletions. */
  function Handle(slugify: Slugifier, c: Catalog, files: seq<File>): Outcome {
    var p := ProcessFiles(slugify, c, PostSlugs(c), files);
    match p.outcome
    case Aborted(c1, e) => Aborted(c1, e)
    case Done(c1) => Done(DeleteOrphanTags(DeletePosts(c1, p.pending)))
  }

  // One file: what the write leaves behind.

  /** The write branch leaves the post holding exactly the file's columns, tags and
      entries; no other post changes and no row disappears. */
  lemma RewriteDone(slugify: Slugifier, c: Catalog, key: string, d: Parsed)
    requires key in c.posts && key == slugify(d.fields.title)
    requires Rewrite(slugify, c, key, d).Done?
    ensures var r := Rewrite(slugify, c, key, d).catalog;
      && r.posts.Keys == c.posts.Keys && r.posts[key].slug == key && Mirrors(slugify, r.posts[key], d)
      && (forall k :: k in c.posts && k != key ==> r.posts[k] == c.posts[k])
      && c.tags <= r.tags && c.tocs <= r.tocs
  {
    var c2 := RewriteRelations(slugify, c, key, d);
    SaveMoves(slugify, c2, Some(key), d.fields);
  }

  /** The relations part of the write branch, up to the final save. */
  lemma RewriteRelations(slugify: Slugifier, c: Catalog, key: string, d: Parsed) returns (c2: Catalog)
    requires key in c.posts
    requires Rewrite(slugify, c, key, d).Done?
    ensures key in c2.posts && Rewrite(slugify, c, key, d) == Save(slugify, c2, Some(key), d.fields)
    ensures c2.posts[key].tags == SetOf(d.tags) && c2.posts[key].toc == SetOf(Entries(slugify, d))
    ensures c2.posts.Keys == c.posts.Keys && (forall k :: k in c.posts && k != key ==> c2.posts[k] == c.posts[k])
    ensures c.tags <= c2.tags && c.tocs <= c2.tocs
  {
    var c0 := ClearRelations(c, key);
    AddTagsDone(c0, key, d.tags);
    var c1 := AddTags(c0, key, d.tags).catalog;
    AddTocsDone(slugify, c1, key, d.toc, 1);
    c2 := AddTocs(slugify, c1, key, d.toc, 1).catalog;
  }

  /** A new post holds exactly the file's columns, tags and entries under the slug of its
      title; no other post changes and no row disappears. */
  lemma CreateDone(slugify: Slugifier, c: Catalog, d: Parsed)
    requires slugify(d.fields.title) !in c.posts
    requires CreatePost(slugify, c, d).Done?
    ensures var s := slugify(d.fields.title);
      var r := CreatePost(slugify, c, d).catalog;
      && r.posts.Keys == c.posts.Keys + {s} && r.posts[s].slug == s && Mirrors(slugify, r.posts[s], d)
      && (forall k :: k in c.posts ==> r.posts[k] == c.posts[k])
      && c.tags <= r.tags && c.tocs <= r.tocs
  {
    var s := slugify(d.fields.title);
    var c3 := CreateRelations(slugify, c, d);
    SaveMoves(slugify, c3, Some(s), d.fields);
  }

  /** The first save and the relations of a new post, up to the final save. */
  lemma CreateRelations(slugify: Slugifier, c: Catalog, d: Parsed) returns (c3: Catalog)
    requires slugify(d.fields.title) !in c.posts
    requires CreatePost(slugify, c, d).Done?
    ensures var s := slugify(d.fields.title);
      && s in c3.posts && CreatePost(slugify, c, d) == Save(slugify, c3, Some(s), d.fields)
      && c3.posts[s].tags == SetOf(d.tags) && c3.posts[s].toc == SetOf(Entries(slugify, d))
      && c3.posts.Keys == c.posts.Keys + {s} && (forall k :: k in c.posts ==> c3.posts[k] == c.posts[k])
      && c.tags <= c3.tags && c.tocs <= c3.tocs
  {
    var s := slugify(d.fields.title);
    SaveMoves(slugify, c, None, d.fields);
    var c1 := Save(slugify, c, None, d.fields).catalog;
    AddTocsDone(slugify, c1, s, d.toc, 1);
    var c2 := AddTocs(slugify, c1, s, d.toc, 1).catalog;
    AddTagsDone(c2, s, d.tags);
    c3 := AddTags(c2, s, d.tags).catalog;
  }

  /** A write that goes through leaves the post keys with the file's slug added. */
  lemma UpdateOrCreateKeys(slugify: Slugifier, c: Catalog, d: Parsed)
    requires UpdateOrCreate(slugify, c, d).Done?
    ensures UpdateOrCreate(slugify, c, d).catalog.posts.Keys == c.posts.Keys + {slugify(d.fields.title)}
  {
    UpdateOrCreateDone(slugify, c, d);
  }

  /** After `update_or_create_post` the file's slug names a post. It is the one the file
      describes unless the change check left an existing post alone; no other post changes. */
  lemma UpdateOrCreateDone(slugify: Slugifier, c: Catalog, d: Parsed)
    requires UpdateOrCreate(slugify, c, d).Done?
    ensures var s := slugify(d.fields.title);
      var r := UpdateOrCreate(slugify, c, d).catalog;
      && r.posts.Keys == c.posts.Keys + {s}
      && (forall k :: k in c.posts && k != s ==> r.posts[k] == c.posts[k])
      && (if s in c.posts && !NeedsWrite(c.posts[s], d) then r == c
          else r.posts[s].slug == s && Mirrors(slugify, r.posts[s], d))
  {
    var s := slugify(d.fields.title);
    if s in c.posts {
      if NeedsWrite(c.posts[s], d) {
        RewriteDone(slugify, c, s, d);
      }
    } else {
      CreateDone(slugify, c, d);
    }
  }

  /** Whatever happens, failures included, the file's write removes nothing: posts, tags
      and entries only accumulate, and the only post that can appear is the file's. */
  lemma UpdateOrCreateGrows(slugify: Slugifier, c: Catalog, d: Parsed)
    ensures var r := UpdateOrCreate(slugify, c, d).catalog;
      && c.posts.Keys <= r.posts.Keys <= c.posts.Keys + {slugify(d.fields.title)}
      && c.tags <= r.tags && c.tocs <= r.tocs
  {
    var s := slugify(d.fields.title);
    if s in c.posts {
      if NeedsWrite(c.posts[s], d) {
        var c0 := ClearRelations(c, s);
        var r1 := AddTags(c0, s, d.tags);
        if r1.Done? {
          var r2 := AddTocs(slugify, r1.catalog, s, d.toc, 1);
          if r2.Done? {
            SaveFails(slugify, r2.catalog, Some(s), d.fields);
            if Save(slugify, r2.catalog, Some(s), d.fields).Done? {
              SaveMoves(slugify, r2.catalog, Some(s), d.fields);
            }
          }
        }
      }
    } else {
      var r0 := Save(slugify, c, None, d.fields);
      SaveFails(slugify, c, None, d.fields);
      if r0.Done? {
        SaveMoves(slugify, c, None, d.fields);
        var r1 := AddTocs(slugify, r0.catalog, s, d.toc, 1);
        if r1.Done? {
          var r2 := AddTags(r1.catalog, s, d.tags);
          if r2.Done? {
            SaveFails(slugify, r2.catalog, Some(s), d.fields);
            if Save(slugify, r2.catalog, Some(s), d.fields).Done? {
              SaveMoves(slugify, r2.catalog, Some(s), d.fields);
            }
          }
        }
      }
    }
  }

  /** The schema's invariants hold after the file's write, whether it finished or not. */
  lemma UpdateOrCreateValid(slugify: Slugifier, c: Catalog, d: Parsed)
    requires Valid(slugify, c)
    ensures Valid(slugify, UpdateOrCreate(slugify, c, d).catalog)
  {
    var s := slugify(d.fields.title);
    if s in c.posts {
      if NeedsWrite(c.posts[s], d) {
        var c0 := ClearRelations(c, s);
        AttachValid(slugify, c, s, "", TocEntry("", 0, ""));
        AddTagsValid(slugify, c0, s, d.tags);
        var r1 := AddTags(c0, s, d.tags);
        if r1.Done? {
          AddTocsValid(slugify, r1.catalog, s, d.toc, 1);
          var r2 := AddTocs(slugify, r1.catalog, s, d.toc, 1);
          if r2.Done? {
            SaveValid(slugify, r2.catalog, Some(s), d.fields);
          }
        }
      }
    } else {
      SaveValid(slugify, c, None, d.fields);
      var r0 := Save(slugify, c, None, d.fields);
      if r0.Done? {
        AddTocsValid(slugify, r0.catalog, s, d.toc, 1);
        var r1 := AddTocs(slugify, r0.catalog, s, d.toc, 1);
        if r1.Done? {
          AddTagsValid(slugify, r1.catalog, s, d.tags);
          var r2 := AddTags(r1.catalog, s, d.tags);
          if r2.Done? {
            SaveValid(slugify, r2.catalog, Some(s), d.fields);
          }
        }
      }
    }
  }

  // One file, twice.

  /** Rewriting a post that already mirrors its file changes nothing. */
  lemma RewriteMirrored(slugify: Slugifier, c: Catalog, key: string, d: Parsed)
    requires key in c.posts && PostValid(slugify, c, key, c.posts[key]) && Mirrors(slugify, c.posts[key], d)
    ensures Rewrite(slugify, c, key, d) == Done(c)
  {
    var c1 := ReaddTags(slugify, c, key, d);
    ReaddTocs(slugify, c, key, d, c1);
    var p := c.posts[key];
    assert c.posts[key := Post(d.fields, key, p.tags, p.toc)] == c.posts;
  }

  /** Clearing and re-adding the tags of a mirrored post restores them. */
  lemma ReaddTags(slugify: Slugifier, c: Catalog, key: string, d: Parsed) returns (c1: Catalog)
    requires key in c.posts && PostValid(slugify, c, key, c.posts[key]) && Mirrors(slugify, c.posts[key], d)
    ensures AddTags(ClearRelations(c, key), key, d.tags) == Done(c1)
    ensures c1 == c.(posts := c.posts[key := c.posts[key].(toc := {})])
  {
    var p := c.posts[key];
    var c0 := ClearRelations(c, key);
    SetOfMembers(d.tags);
    assert forall i :: 0 <= i < |d.tags| ==> d.tags[i] in c0.tags;
    AddTagsFails(c0, key, d.tags);
    AddTagsResult(c0, key, d.tags);
    c1 := AddTags(c0, key, d.tags).catalog;
    assert SetOf(d.tags) == p.tags && p.tags <= c.tags;
    assert {} + p.tags == p.tags && c.tags + p.tags == c.tags;
    assert c0.posts[key := p.(tags := {}, toc := {}).(tags := p.tags)] == c.posts[key := p.(toc := {})];
  }

  /** Re-adding the entries of a mirrored post, after its tags, restores it whole. */
  lemma ReaddTocs(slugify: Slugifier, c: Catalog, key: string, d: Parsed, c1: Catalog)
    requires key in c.posts && PostValid(slugify, c, key, c.posts[key]) && Mirrors(slugify, c.posts[key], d)
    requires c1 == c.(posts := c.posts[key := c.posts[key].(toc := {})])
    ensures AddTocs(slugify, c1, key, d.toc, 1) == Done(c)
  {
    var p := c.posts[key];
    var es := SetOf(TocEntries(slugify, d.toc, 1));
    assert p.toc == es && es <= c.tocs;
    AddTocsPresent(slugify, c1, key, d.toc, 1);
    AddTocsResult(slugify, c1, key, d.toc, 1);
    assert {} + es == es && c.tocs + es == c.tocs;
    assert c1.posts[key := p.(toc := {}).(toc := es)] == c.posts;
  }

  /** On a post that mirrors its file, the change check fires exactly when the file lists
      a tag twice: the relation holds each tag once, so the counts differ. */
  lemma MirroredNeedsWrite(slugify: Slugifier, p: Post, d: Parsed)
    requires Mirrors(slugify, p, d)
    ensures NeedsWrite(p, d) <==> !Distinct(d.tags)
  {
    TocEntriesDistinct(slugify, d.toc, 1);
    if Distinct(d.tags) {
      SetOfDistinct(d.tags);
    } else {
      var i, j :| 0 <= i < j < |d.tags| && d.tags[i] == d.tags[j];
      SetOfRepeated(d.tags, i, j);
    }
  }

  /** Processing the same file a second time leaves the database as the first time did,
      whether or not the change check fires again. */
  lemma UpdateOrCreateIdempotent(slugify: Slugifier, c: Catalog, d: Parsed)
    requires Valid(slugify, c)
    requires UpdateOrCreate(slugify, c, d).Done?
    ensures var r := UpdateOrCreate(slugify, c, d).catalog;
      UpdateOrCreate(slugify, r, d) == Done(r)
  {
    var s := slugify(d.fields.title);
    var r := UpdateOrCreate(slugify, c, d).catalog;
    UpdateOrCreateDone(slugify, c, d);
    UpdateOrCreateValid(slugify, c, d);
    if r != c && NeedsWrite(r.posts[s], d) {
      RewriteMirrored(slugify, r, s, d);
    }
  }

  /** The post under the file's slug is one a second look leaves alone: it mirrors the file,
      or the change check does not fire on it. */
  predicate Settled(slugify: Slugifier, c: Catalog, d: Parsed) {
    var s := slugify(d.fields.title);
    s in c.posts && (Mirrors(slugify, c.posts[s], d) || !NeedsWrite(c.posts[s], d))
  }

  /** Writing a file whose post is settled changes nothing. */
  lemma UpdateOrCreateSettled(slugify: Slugifier, c: Catalog, d: Parsed)
    requires Valid(slugify, c) && Settled(slugify, c, d)
    ensures UpdateOrCreate(slugify, c, d) == Done(c)
  {
    var s := slugify(d.fields.title);
    if NeedsWrite(c.posts[s], d) {
      RewriteMirrored(slugify, c, s, d);
    }
  }

  /** The change check compares the tag relation by count only: renaming a post's one
      tag, with nothing else changed, is not seen. */
  lemma RenamedTagUnnoticed(f: Fields)
    ensures var p := Post(f, "post", {"python"}, {});
      var d := Parsed(f, ["django"], []);
      !NeedsWrite(p, d) && p.tags != SetOf(d.tags)
  {
    assert "python" !in SetOf(["django"]);
  }

  /** Two files with the same title, columns and counts but different tags: the change
      check skips the second, so the post keeps the first file's tag. The later file does
      not always win. */
  lemma EarlierTagsStay(slugify: Slugifier, f: Fields)
    requires |f.title| <= MaxTitle && |slugify(f.title)| <= MaxPostSlug
    ensures var first := Parsed(f, ["a"], []);
      var second := Parsed(f, ["b"], []);
      var o := UpdateOrCreate(slugify, Catalog(map[], {}, {}), first);
      && o.Done?
      && UpdateOrCreate(slugify, o.catalog, second) == Done(o.catalog)
      && o.catalog.posts[slugify(f.title)].tags == {"a"}
  {
  }

  // The whole pass.

  /** The slugs the read files describe. */
  function Slugs(slugify: Slugifier, items: seq<Option<Result<Parsed>>>): set<string>
    decreases |items|
  {
    if items == [] then {}
    else (match items[0] case Some(Success(d)) => {slugify(d.fields.title)} case _ => {}) + Slugs(slugify, items[1..])
  }

  /** The entries that are files read, in order. */
  function Present(items: seq<Option<Result<Parsed>>>): (r: seq<Option<Result<Parsed>>>)
    ensures |r| <= |items|
    decreases |items|
  {
    if items == [] then []
    else (if items[0].Some? then [items[0]] else []) + Present(items[1..])
  }

  /** The Markdown files, in order. */
  function Markdown(files: seq<File>): (r: seq<File>)
    ensures |r| <= |files|
    decreases |files|
  {
    if files == [] then []
    else (if IsMarkdown(files[0]) then [files[0]] else []) + Markdown(files[1..])
  }

  /** One item of a pass that goes on: its slug joins the posts and leaves the pending set. */
  lemma ProcessItemDone(slugify: Slugifier, c: Catalog, pending: set<string>, item: Option<Result<Parsed>>)
    requires ProcessItem(slugify, c, pending, item).outcome.Done?
    ensures var p := ProcessItem(slugify, c, pending, item);
      var fs := Slugs(slugify, [item]);
      p.outcome.catalog.posts.Keys == c.posts.Keys + fs && p.pending == pending - fs
  {
    assert [item][1..] == [];
    assert Slugs(slugify, [item][1..]) == {};
    match item
    case None =>
    case Some(Failure(_)) =>
    case Some(Success(d)) =>
      var s := slugify(d.fields.title);
      assert Slugs(slugify, [item]) == {s};
      UpdateOrCreateKeys(slugify, c, d);
  }

  /** A pass whose items all go through adds exactly their slugs to the posts and removes
      them from the pending set. */
  lemma {:induction false} RunDone(slugify: Slugifier, c: Catalog, pending: set<string>, items: seq<Option<Result<Parsed>>>)
    requires Run(slugify, c, pending, items).outcome.Done?
    ensures var p := Run(slugify, c, pending, items);
      && p.outcome.catalog.posts.Keys == c.posts.Keys + Slugs(slugify, items)
      && p.pending == pending - Slugs(slugify, items)
    decreases |items|
  {
    if items != [] {
      var p := ProcessItem(slugify, c, pending, items[0]);
      ProcessItemDone(slugify, c, pending, items[0]);
      RunDone(slugify, p.outcome.catalog, p.pending, items[1..]);
      assert Slugs(slugify, items) == Slugs(slugify, [items[0]]) + Slugs(slugify, items[1..]) by {
        assert [items[0]][1..] == [];
      }
    }
  }

  /** During the loop nothing is removed, failure or not. */
  lemma {:induction false} RunGrows(slugify: Slugifier, c: Catalog, pending: set<string>, items: seq<Option<Result<Parsed>>>)
    ensures var r := Run(slugify, c, pending, items).outcome.catalog;
      c.posts.Keys <= r.posts.Keys && c.tags <= r.tags && c.tocs <= r.tocs
    decreases |items|
  {
    if items != [] {
      var p := ProcessItem(slugify, c, pending, items[0]);
      if items[0].Some? && items[0].value.Success? {
        UpdateOrCreateGrows(slugify, c, items[0].value.value);
      }
      if p.outcome.Done? {
        RunGrows(slugify, p.outcome.catalog, p.pending, items[1..]);
      }
    }
  }

  /** The schema's invariants hold wherever the loop stops. */
  lemma {:induction false} RunValid(slugify: Slugifier, c: Catalog, pending: set<string>, items: seq<Option<Result<Parsed>>>)
    requires Valid(slugify, c)
    ensures Valid(slugify, Run(slugify, c, pending, items).outcome.catalog)
    decreases |items|
  {
    if items != [] {
      var p := ProcessItem(slugify, c, pending, items[0]);
      if items[0].Some? && items[0].value.Success? {
        UpdateOrCreateValid(slugify, c, items[0].value.value);
      }
      if p.outcome.Done? {
        RunValid(slugify, p.outcome.catalog, p.pending, items[1..]);
      }
    }
  }

  /** A completed run leaves exactly one post per slug the Markdown files describe, every
      remaining tag in use, and the schema's invariants intact. */
  lemma HandleMirrors(slugify: Slugifier, c: Catalog, files: seq<File>)
    requires Valid(slugify, c)
    requires Handle(slugify, c, files).Done?
    ensures var r := Handle(slugify, c, files).catalog;
      && r.posts.Keys == Slugs(slugify, ReadAll(slugify, files))
      && (forall t :: t in r.tags ==> exists k :: k in r.posts && t in r.posts[k].tags)
      && Valid(slugify, r)
  {
    var items := ReadAll(slugify, files);
    var p := Run(slugify, c, PostSlugs(c), items);
    RunDone(slugify, c, PostSlugs(c), items);
    RunValid(slugify, c, PostSlugs(c), items);
    var c1 := p.outcome.catalog;
    DeleteValid(slugify, c1, p.pending);
    DeleteValid(slugify, DeletePosts(c1, p.pending), {});
    DeleteUnseen(slugify, c, c1, Slugs(slugify, items));
  }

  // The whole pass, twice.

  /** No two files that parse describe the same slug. */
  predicate DistinctSlugs(slugify: Slugifier, items: seq<Option<Result<Parsed>>>)
    decreases |items|
  {
    items != [] ==>
      && (match items[0] case Some(Success(d)) => slugify(d.fields.title) !in Slugs(slugify, items[1..]) case _ => true)
      && DistinctSlugs(slugify, items[1..])
  }

  /** Every file parses and its post is settled. */
  predicate AllSettled(slugify: Slugifier, c: Catalog, items: seq<Option<Result<Parsed>>>)
    decreases |items|
  {
    items != [] ==>
      && (match items[0] case None => true case Some(Failure(_)) => false case Some(Success(d)) => Settled(slugify, c, d))
      && AllSettled(slugify, c, items[1..])
  }

  /** Running the same directory a second time, once the first run went through, changes
      nothing, provided no two files describe the same slug. */
  lemma HandleIdempotent(slugify: Slugifier, c: Catalog, files: seq<File>)
    requires Valid(slugify, c)
    requires Handle(slugify, c, files).Done?
    requires DistinctSlugs(slugify, ReadAll(slugify, files))
    ensures var r := Handle(slugify, c, files).catalog;
      Handle(slugify, r, files) == Done(r)
  {
    var items := ReadAll(slugify, files);
    var r := Handle(slugify, c, files).catalog;
    HandleSettles(slugify, c, files);
    HandleMirrors(slugify, c, files);
    RunSettled(slugify, r, PostSlugs(r), items);
    assert PostSlugs(r) == r.posts.Keys;
    assert ProcessFiles(slugify, r, PostSlugs(r), files) == Pass(Done(r), {});
    KeepAll(r);
  }

  /** After a run that goes through, the post of every file is settled. */
  lemma HandleSettles(slugify: Slugifier, c: Catalog, files: seq<File>)
    requires Valid(slugify, c)
    requires Handle(slugify, c, files).Done?
    requires DistinctSlugs(slugify, ReadAll(slugify, files))
    ensures AllSettled(slugify, Handle(slugify, c, files).catalog, ReadAll(slugify, files))
  {
    var items := ReadAll(slugify, files);
    var p := Run(slugify, c, PostSlugs(c), items);
    var c1 := p.outcome.catalog;
    var r := DeleteOrphanTags(DeletePosts(c1, p.pending));
    assert Handle(slugify, c, files).catalog == r;
    RunDone(slugify, c, PostSlugs(c), items);
    RunValid(slugify, c, PostSlugs(c), items);
    RunSettles(slugify, c, PostSlugs(c), items);
    forall k | k in c1.posts && k in Slugs(slugify, items)
      ensures k in r.posts && r.posts[k] == c1.posts[k]
    {
      assert c1.posts[k].slug == k && k !in p.pending;
    }
    AllSettledKeep(slugify, c1, r, items);
  }

  /** With nothing pending and every tag in use, the deletions delete nothing. */
  lemma KeepAll(c: Catalog)
    requires forall t :: t in c.tags ==> exists k :: k in c.posts && t in c.posts[k].tags
    ensures DeleteOrphanTags(DeletePosts(c, {})) == c
  {
    assert DeletePosts(c, {}) == c;
  }

  /** A run that goes through settles the post of every file, when the slugs are
      distinct: a later file cannot touch an earlier file's post. */
  lemma {:induction false} RunSettles(slugify: Slugifier, c: Catalog, pending: set<string>, items: seq<Option<Result<Parsed>>>)
    requires Run(slugify, c, pending, items).outcome.Done?
    requires DistinctSlugs(slugify, items)
    ensures AllSettled(slugify, Run(slugify, c, pending, items).outcome.catalog, items)
    decreases |items|
  {
    if items != [] {
      var p := ProcessItem(slugify, c, pending, items[0]);
      RunSettles(slugify, p.outcome.catalog, p.pending, items[1..]);
      if items[0].Some? && items[0].value.Success? {
        var d := items[0].value.value;
        UpdateOrCreateDone(slugify, c, d);
        RunKeeps(slugify, p.outcome.catalog, p.pending, items[1..], slugify(d.fields.title));
      }
    }
  }

  /** A run that goes through leaves alone every post no file describes. */
  lemma {:induction false} RunKeeps(slugify: Slugifier, c: Catalog, pending: set<string>, items: seq<Option<Result<Parsed>>>, k: string)
    requires Run(slugify, c, pending, items).outcome.Done?
    requires k in c.posts && k !in Slugs(slugify, items)
    ensures var r := Run(slugify, c, pending, items).outcome.catalog;
      k in r.posts && r.posts[k] == c.posts[k]
    decreases |items|
  {
    if items != [] {
      var p := ProcessItem(slugify, c, pending, items[0]);
      if items[0].Some? && items[0].value.Success? {
        UpdateOrCreateDone(slugify, c, items[0].value.value);
      }
      RunKeeps(slugify, p.outcome.catalog, p.pending, items[1..], k);
    }
  }

  /** Settled posts stay settled in a catalog that keeps them. */
  lemma {:induction false} AllSettledKeep(slugify: Slugifier, c1: Catalog, c2: Catalog, items: seq<Option<Result<Parsed>>>)
    requires AllSettled(slugify, c1, items)
    requires forall k :: k in c1.posts && k in Slugs(slugify, items) ==> k in c2.posts && c2.posts[k] == c1.posts[k]
    ensures AllSettled(slugify, c2, items)
    decreases |items|
  {
    if items != [] {
      AllSettledKeep(slugify, c1, c2, items[1..]);
    }
  }

  /** Over settled posts the loop writes nothing and only empties the pending set. */
  lemma {:induction false} RunSettled(slugify: Slugifier, c: Catalog, pending: set<string>, items: seq<Option<Result<Parsed>>>)
    requires Valid(slugify, c) && AllSettled(slugify, c, items)
    ensures Run(slugify, c, pending, items) == Pass(Done(c), pending - Slugs(slugify, items))
    decreases |items|
  {
    if items != [] {
      if items[0].Some? {
        UpdateOrCreateSettled(slugify, c, items[0].value.value);
      }
      var p := ProcessItem(slugify, c, pending, items[0]);
      RunSettled(slugify, c, p.pending, items[1..]);
    } else {
      assert pending - {} == pending;
    }
  }

  /** The deletion after the loop: the posts that were there at the start and whose slug
      no file produced go, and the files' posts stay. */
  lemma DeleteUnseen(slugify: Slugifier, c: Catalog, c1: Catalog, seen: set<string>)
    requires Valid(slugify, c) && Valid(slugify, c1)
    requires c1.posts.Keys == c.posts.Keys + seen
    ensures DeletePosts(c1, PostSlugs(c) - seen).posts.Keys == seen
  {
    assert PostSlugs(c) == c.posts.Keys;
  }

  /** A run stopped by an exception deletes nothing: every post, tag and entry it started
      with is still there, next to whatever it wrote before the failure. */
  lemma HandleAbortDeletesNothing(slugify: Slugifier, c: Catalog, files: seq<File>)
    requires Handle(slugify, c, files).Aborted?
    ensures var r := Handle(slugify, c, files).catalog;
      c.posts.Keys <= r.posts.Keys && c.tags <= r.tags && c.tocs <= r.tocs
  {
    RunGrows(slugify, c, PostSlugs(c), ReadAll(slugify, files));
  }

  /** Entries are never deleted, and the schema's invariants hold however the run ends. */
  lemma HandleValid(slugify: Slugifier, c: Catalog, files: seq<File>)
    requires Valid(slugify, c)
    ensures Valid(slugify, Handle(slugify, c, files).catalog)
    ensures c.tocs <= Handle(slugify, c, files).catalog.tocs
  {
    var items := ReadAll(slugify, files);
    var p := Run(slugify, c, PostSlugs(c), items);
    RunGrows(slugify, c, PostSlugs(c), items);
    RunValid(slugify, c, PostSlugs(c), items);
    DeleteValid(slugify, p.outcome.catalog, p.pending);
    DeleteValid(slugify, DeletePosts(p.outcome.catalog, p.pending), {});
  }

  /** Skipped entries play no part: the loop over all items is the loop over the files
      read. */
  lemma {:induction false} RunPresent(slugify: Slugifier, c: Catalog, pending: set<string>, items: seq<Option<Result<Parsed>>>)
    ensures Run(slugify, c, pending, items) == Run(slugify, c, pending, Present(items))
    decreases |items|
  {
    if items != [] {
      var p := ProcessItem(slugify, c, pending, items[0]);
      if items[0].Some? {
        assert Present(items) == [items[0]] + Present(items[1..]);
        assert ([items[0]] + Present(items[1..]))[1..] == Present(items[1..]);
        if p.outcome.Done? {
          RunPresent(slugify, p.outcome.catalog, p.pending, items[1..]);
        }
      } else {
        assert Present(items) == Present(items[1..]);
        RunPresent(slugify, c, pending, items[1..]);
      }
    }
  }

  /** Reading only the Markdown files reads the same files, in the same order. */
  lemma {:induction false} ReadMarkdown(slugify: Slugifier, files: seq<File>)
    ensures ReadAll(slugify, Markdown(files)) == Present(ReadAll(slugify, files))
    decreases |files|
  {
    if files != [] {
      ReadMarkdown(slugify, files[1..]);
      var items := ReadAll(slugify, files);
      assert items == [Read(slugify, files[0])] + ReadAll(slugify, files[1..]);
      assert items[0] == Read(slugify, files[0]) && items[1..] == ReadAll(slugify, files[1..]);
      var m := Markdown(files[1..]);
      if IsMarkdown(files[0]) {
        assert Markdown(files) == [files[0]] + m;
        assert ([files[0]] + m)[0] == files[0] && ([files[0]] + m)[1..] == m;
      } else {
        assert Markdown(files) == m;
      }
    }
  }

  /** Files that are not Markdown play no part in a run. */
  lemma OnlyMarkdownMatters(slugify: Slugifier, c: Catalog, files: seq<File>)
    ensures ProcessFiles(slugify, c, PostSlugs(c), files) == ProcessFiles(slugify, c, PostSlugs(c), Markdown(files))
  {
    RunPresent(slugify, c, PostSlugs(c), ReadAll(slugify, files));
    ReadMarkdown(slugify, files);
    RunPresent(slugify, c, PostSlugs(c), ReadAll(slugify, Markdown(files)));
    PresentTwice(ReadAll(slugify, files));
  }

  lemma {:induction false} PresentTwice(items: seq<Option<Result<Parsed>>>)
    ensures Present(Present(items)) == Present(items)
    decreases |items|
  {
    if items != [] {
      PresentTwice(items[1..]);
      var rest := Present(items[1..]);
      if items[0].Some? {
        assert Present(items) == [items[0]] + rest;
        assert ([items[0]] + rest)[0] == items[0] && ([items[0]] + rest)[1..] == rest;
      } else {
        assert Present(items) == rest;
      }
    }
  }

  /** A Markdown file that does not parse, or has no publish date, stops the run there or
      earlier: the deletions never happen. */
  lemma {:induction false} BadItemAborts(slugify: Slugifier, c: Catalog, pending: set<string>, items: seq<Option<Result<Parsed>>>, i: nat)
    requires i < |items| && items[i].Some? && items[i].value.Failure?
    ensures Run(slugify, c, pending, items).outcome.Aborted?
    decreases i
  {
    var p := ProcessItem(slugify, c, pending, items[0]);
    if i > 0 && p.outcome.Done? {
      assert items[1..][i - 1] == items[i];
      BadItemAborts(slugify, p.outcome.catalog, p.pending, items[1..], i - 1);
    }
  }

  /** The run over a directory with a Markdown file that fails to parse, or lacks its
      publish date, ends in failure, and no post is deleted. */
  lemma BadFileAborts(slugify: Slugifier, c: Catalog, files: seq<File>, i: nat)
    requires i < |files| && IsMarkdown(files[i]) && ParseFile(slugify, files[i].text).Failure?
    ensures Handle(slugify, c, files).Aborted?
    ensures c.posts.Keys <= Handle(slugify, c, files).catalog.posts.Keys
  {
    ReadAllAt(slugify, files, i);
    BadItemAborts(slugify, c, PostSlugs(c), ReadAll(slugify, files), i);
    HandleAbortDeletesNothing(slugify, c, files);
  }

  /** The `i`-th item read is the read of the `i`-th file. */
  lemma {:induction false} ReadAllAt(slugify: Slugifier, files: seq<File>, i: nat)
    requires i < |files|
    ensures ReadAll(slugify, files)[i] == Read(slugify, files[i])
    decreases i
  {
    if i > 0 {
      ReadAllAt(slugify, files[1..], i - 1);
    }
  }

  /** The loop over a directory listing split in two is the loop over the first part
      followed, if it went through, by the loop over the second: writes made before a
      failure stay. */
  lemma {:induction false} RunAppend(slugify: Slugifier, c: Catalog, pending: set<string>, a: seq<Option<Result<Parsed>>>, b: seq<Option<Result<Parsed>>>)
    ensures var p := Run(slugify, c, pending, a);
      Run(slugify, c, pending, a + b) ==
        if p.outcome.Aborted? then p else Run(slugify, p.outcome.catalog, p.pending, b)
    decreases |a|
  {
    if a != [] {
      var p := ProcessItem(slugify, c, pending, a[0]);
      assert (a + b)[0] == a[0] && (a + b)[1..] == a[1..] + b;
      if p.outcome.Done? {
        RunAppend(slugify, p.outcome.catalog, p.pending, a[1..], b);
      }
    } else {
      assert a + b == b;
    }
  }

  /** A file that parses is read from its header key by key: the title defaults to
      `Untitled`, the publish date is the header's own, the last update defaults to the empty
      string, and the tag list is the `Tags` value cut at each `", "`, so joining it back
      gives that value (a missing `Tags` gives the one empty tag). */
  lemma ParseFileFields(slugify: Slugifier, text: string)
    ensures ParseFile(slugify, text).Success? ==>
      var doc := FrontMatter.Extract(slugify, text).value;
      var d := ParseFile(slugify, text).value;
      && d.fields.title == Get(doc.header, "Title", "Untitled")
      && ("Title" !in doc.header ==> d.fields.title == "Untitled")
      && "Published Date" in doc.header && d.fields.publishDate == doc.header["Published Date"]
      && d.fields.lastUpdate == Get(doc.header, "Last Update", "")
      && d.fields.content == doc.content
      && Join(d.tags, ", ") == Get(doc.header, "Tags", "")
      && ("Tags" !in doc.header ==> d.tags == [""])
  {
    if ParseFile(slugify, text).Success? {
      var doc := FrontMatter.Extract(slugify, text).value;
      JoinSplit(Get(doc.header, "Tags", ""), ", ");
    }
  }

  /** A file with no header has no publish date. The command as written fails on it
      before looking; read as intended it fails at the date check. Either way the run
      stops at that file with nothing written for it. */
  lemma NoHeaderAborts(slugify: Slugifier, text: string)
    requires FrontMatter.HeaderEnd(text).None?
    ensures FrontMatter.ExtractAsWritten(slugify, text) == Failure(NoFrontMatter)
    ensures ParseFile(slugify, text) == Failure(EmptyPublishDate)
  {
  }

  /** A file whose header gives a title and a publish date, and nothing else, is read as a
      post with that title and date, no last-update date, the one empty tag that splitting
      an empty string yields, and the rewritten body. */
  lemma ParseRendered(slugify: Slugifier, title: string, date: string, body: string)
    requires FrontMatter.CleanValue(title) && FrontMatter.CleanValue(date)
    ensures var text := FrontMatter.Render([("Title", title), ("Published Date", date)], body);
      var r := ParseFile(slugify, text);
      && r.Success?
      && r.value.fields.title == title && r.value.fields.publishDate == date
      && r.value.fields.lastUpdate == "" && r.value.tags == [""]
      && r.value.fields.content == FrontMatter.Body(slugify, body)
  {
    var es := [("Title", title), ("Published Date", date)];
    var text := FrontMatter.Render(es, body);
    var m := map["Title" := title, "Published Date" := date];
    FrontMatter.RenderExtract(slugify, es, body);
    FoldTitleDate(title, date);
    TitleDateHeader(title, date);
    ParseDocument(slugify, text, FrontMatter.Document(m, FrontMatter.Body(slugify, body)));
    assert Split("", ", ") == [""];
  }

  /** Folding a title entry and a date entry gives the map of the two. */
  lemma FoldTitleDate(title: string, date: string)
    ensures FrontMatter.Fold([("Title", title), ("Published Date", date)], map[])
         == map["Title" := title, "Published Date" := date]
  {
    var es := [("Title", title), ("Published Date", date)];
    var m1 := map["Title" := title];
    assert FrontMatter.Fold(es, map[]) == FrontMatter.Fold(es[1..], m1);
    assert es[1..][0] == ("Published Date", date) && es[1..][1..] == [];
    assert FrontMatter.Fold(es[1..], m1) == FrontMatter.Fold([], m1["Published Date" := date]);
  }

  /** In a header of just a title and a date, the other keys take their defaults. */
  lemma TitleDateHeader(title: string, date: string)
    ensures var m := map["Title" := title, "Published Date" := date];
      && Get(m, "Title", "Untitled") == title && Get(m, "Published Date", "") == date
      && Get(m, "Last Update", "") == "" && Get(m, "Tags", "") == ""
  {
    assert |"Last Update"| == 11 && |"Tags"| == 4 && |"Title"| == 5 && |"Published Date"| == 14;
  }

  /** `ParseFile` unfolded for a header that parses and carries a publish date: a proof
      step for the lemmas below, not a statement of its own (ParseFileFields states what
      the fields mean). */
  lemma ParseDocument(slugify: Slugifier, text: string, doc: FrontMatter.Document)
    requires FrontMatter.Extract(slugify, text) == Success(doc)
    requires Get(doc.header, "Published Date", "") != ""
    ensures ParseFile(slugify, text)
         == Success(Parsed(Fields(Get(doc.header, "Title", "Untitled"), Intro.Extract(text), doc.content,
                                  Get(doc.header, "Published Date", ""), Get(doc.header, "Last Update", "")),
                           Split(Get(doc.header, "Tags", ""), ", "), TableOfContents.Extract(text)))
  {
  }

  // A rendered post file: its anchors and its table of contents.

  /** A post file whose body has no code fence, and no bare `##` line before its last
      line, reads back with the body's heading lines turned into anchors as its content
      and the text of those same heading lines, in order, as its table of contents. */
  lemma AnchorsMatchToc(slugify: Slugifier, entries: seq<(string, string)>, lines: seq<Line>)
    requires FrontMatter.CleanEntries(entries)
    requires Get(FrontMatter.Fold(entries, map[]), "Published Date", "") != ""
    requires |lines| >= 1 && CodeBlocks.NoFence(Join(lines, "\n"))
    requires forall i :: 0 <= i < |lines| - 1 ==> !Headings.IsBareHeading(lines[i])
    ensures var r := ParseFile(slugify, FrontMatter.Render(entries, Join(lines, "\n")));
      && r.Success?
      && r.value.fields.content == Join(Headings.AnchorLines(slugify, lines), "\n")
      && r.value.toc == TableOfContents.HeadingTexts(lines)
  {
    var body := Join(lines, "\n");
    var text := FrontMatter.Render(entries, body);
    assert |entries| >= 1;
    FrontMatter.RenderExtract(slugify, entries, body);
    var doc := FrontMatter.Document(FrontMatter.Fold(entries, map[]), FrontMatter.Body(slugify, body));
    ParseDocument(slugify, text, doc);
    FrontMatter.FenceFreeBody(slugify, body);
    Headings.TransformByLines(slugify, lines);
    RenderedToc(entries, lines);
  }

  /** The heading on body line `j` is table-of-contents entry `n`, where `n` counts the
      heading lines before it; the row made for it is numbered `n + 1`, and its slug is the
      id of the anchor that replaces line `j`. */
  lemma HeadingAnchorIsEntry(slugify: Slugifier, d: Parsed, lines: seq<Line>, j: nat)
    requires d.toc == TableOfContents.HeadingTexts(lines)
    requires j < |lines| && Headings.HeadingText(lines[j]).Some?
    ensures var t := Headings.HeadingText(lines[j]).value;
      var n := |TableOfContents.HeadingTexts(lines[..j])|;
      && n < |d.toc| && d.toc[n] == t
      && Entries(slugify, d)[n] == TocEntry(t, n + 1, slugify(t))
      && Headings.AnchorLines(slugify, lines)[j] == "<h2 id=\"" + Entries(slugify, d)[n].slug + "\">" + t + "</h2>"
  {
    TableOfContents.HeadingTextsAt(lines, j);
  }

  /** The table of contents of a rendered file is the heading texts of its body lines: the
      header lines are not fences, so the second fence is the closing one. */
  lemma RenderedToc(entries: seq<(string, string)>, lines: seq<Line>)
    requires |entries| >= 1 && FrontMatter.CleanEntries(entries) && |lines| >= 1
    ensures TableOfContents.Extract(FrontMatter.Render(entries, Join(lines, "\n"))) == TableOfContents.HeadingTexts(lines)
  {
    RenderedLines(entries, lines);
    EntryLinesNotFences(entries);
    TableOfContents.ExtractAfterHeader(FrontMatter.Render(entries, Join(lines, "\n")), FrontMatter.EntryLines(entries), lines);
  }

  /** No header line of a rendered file is a fence: each starts with its key. */
  lemma EntryLinesNotFences(entries: seq<(string, string)>)
    requires FrontMatter.CleanEntries(entries)
    ensures forall i :: 0 <= i < |FrontMatter.EntryLines(entries)| ==> !TableOfContents.IsDelimiter(FrontMatter.EntryLines(entries)[i])
  {
    var es := FrontMatter.EntryLines(entries);
    FrontMatter.EntryLinesAt(entries);
    forall i | 0 <= i < |es| ensures !TableOfContents.IsDelimiter(es[i]) {
      assert es[i] == FrontMatter.EntryLine(entries[i].0, entries[i].1);
      assert es[i][0] == entries[i].0[0];
      TableOfContents.NotDelimiter(es[i]);
    }
  }

  /** The lines of a rendered file: the opening fence, one line per entry, the closing
      fence, then the body lines. */
  lemma RenderedLines(entries: seq<(string, string)>, lines: seq<Line>)
    requires |entries| >= 1 && FrontMatter.CleanEntries(entries) && |lines| >= 1
    ensures Lines(FrontMatter.Render(entries, Join(lines, "\n"))) == ["---"] + FrontMatter.EntryLines(entries) + ["---"] + lines
  {
    var all := ["---"] + FrontMatter.EntryLines(entries) + ["---"] + lines;
    RenderedJoin(entries, lines);
    RenderedPiecesOneLine(entries, lines);
    SplitJoin(all, '\n');
  }

  lemma RenderedJoin(entries: seq<(string, string)>, lines: seq<Line>)
    requires |entries| >= 1 && |lines| >= 1
    ensures Join(["---"] + FrontMatter.EntryLines(entries) + ["---"] + lines, "\n") == FrontMatter.Render(entries, Join(lines, "\n"))
  {
    var es := FrontMatter.EntryLines(entries);
    JoinAppend(["---"], es, "\n");
    JoinAppend(["---"] + es, ["---"], "\n");
    JoinAppend(["---"] + es + ["---"], lines, "\n");
  }

  lemma RenderedPiecesOneLine(entries: seq<(string, string)>, lines: seq<Line>)
    requires FrontMatter.CleanEntries(entries)
    ensures var all := ["---"] + FrontMatter.EntryLines(entries) + ["---"] + lines;
      forall i :: 0 <= i < |all| ==> '\n' !in all[i]
  {
    var es := FrontMatter.EntryLines(entries);
    var all := ["---"] + es + ["---"] + lines;
    FrontMatter.LinesWithoutNewline(entries);
    forall i | 0 <= i < |all| ensures '\n' !in all[i] {
      if 1 <= i <= |es| {
        assert all[i] == es[i - 1];
      } else if i > |es| + 1 {
        assert all[i] == lines[i - |es| - 2];
      }
    }
  }
}

=== FILE: store.dfy ===
/** The records of `blogapp/models.py` and the ORM operations the ingestion command performs
    on them, as an immutable catalog. A failing operation returns the catalog as far as it
    got: there is no transaction, so writes made before the failure stay. */
module Store {
  import opened Base
  import opened Text

  const MaxTitle := 100
  const MaxPostSlug := 150
  const MaxTagName := 50
  const MaxTocContent := 200
  const MaxTocSlug := 200

  /** A `TableOfContent` row; `get_or_create` looks it up by all three columns. */
  datatype TocEntry = TocEntry(content: string, order: int, slug: string)

  /** The scalar columns of a `BlogPost` that the command writes and compares. */
  datatype Fields = Fields(title: string, intro: string, content: string, publishDate: string, lastUpdate: string)

  /** A `BlogPost`: its scalar columns, its slug, and its two many-to-many relations. Tags
      are identified by name. */
  datatype Post = Post(fields: Fields, slug: string, tags: set<string>, toc: set<TocEntry>)

  /** The database: posts by slug, the `Tag` names, the `TableOfContent` rows. */
  datatype Catalog = Catalog(posts: map<string, Post>, tags: set<string>, tocs: set<TocEntry>)

  /** The state after an operation, and the error that stopped it, if any. */
  datatype Outcome = Done(catalog: Catalog) | Aborted(catalog: Catalog, error: Error)

  function TocSlugs(c: Catalog): set<string> {
    set e | e in c.tocs :: e.slug
  }

  /** What the schema guarantees: each post is stored under its slug, which is the slug of
      its title; column lengths are within their `max_length`; relations point at existing
      rows; no two table-of-contents rows share a slug. */
  predicate Valid(slugify: Slugifier, c: Catalog) {
    && (forall k :: k in c.posts ==> PostValid(slugify, c, k, c.posts[k]))
    && (forall t :: t in c.tags ==> |t| <= MaxTagName)
    && (forall e :: e in c.tocs ==> |e.content| <= MaxTocContent && |e.slug| <= MaxTocSlug)
    && TocSlugsUnique(c)
  }

  /** The `unique=True` on `TableOfContent.slug`. */
  predicate TocSlugsUnique(c: Catalog) {
    forall e1, e2 :: e1 in c.tocs && e2 in c.tocs && e1.slug == e2.slug ==> e1 == e2
  }

  predicate PostValid(slugify: Slugifier, c: Catalog, k: string, p: Post) {
    && p.slug == k && k == slugify(p.fields.title)
    && |p.fields.title| <= MaxTitle && |k| <= MaxPostSlug
    && p.tags <= c.tags && p.toc <= c.tocs
  }

  /** `post.save()`: the slug is recomputed from the title, the columns are checked, and the
      row is written under the new slug. `key` is the row's slug before the save (`None`
      for a new row); its relations move with it. */
  function Save(slugify: Slugifier, c: Catalog, key: Option<string>, f: Fields): (r: Outcome)
    ensures r.catalog.tags == c.tags && r.catalog.tocs == c.tocs
    ensures r.Done? ==> slugify(f.title) in r.catalog.posts && r.catalog.posts[slugify(f.title)].fields == f
  {
    var s := slugify(f.title);
    if |f.title| > MaxTitle then Aborted(c, ValueTooLong("title", f.title))
    else if |s| > MaxPostSlug then Aborted(c, ValueTooLong("slug", s))
    else if s in c.posts && key != Some(s) then Aborted(c, SlugTaken(s))
    else
      var prior := if key.Some? && key.value in c.posts then c.posts[key.value] else Post(f, s, {}, {});
      var rest := if key.Some? then c.posts - {key.value} else c.posts;
      Done(c.(posts := rest[s := Post(f, s, prior.tags, prior.toc)]))
  }

  /** `Tag.objects.get_or_create(name=...)`. */
  function GetOrCreateTag(c: Catalog, name: string): (r: Outcome)
    ensures r.catalog.posts == c.posts && r.catalog.tocs == c.tocs
    ensures r.Done? <==> name in c.tags || |name| <= MaxTagName
    ensures r.Done? ==> r.catalog.tags == c.tags + {name}
    ensures r.Aborted? ==> r.catalog == c
  {
    if name in c.tags then Done(c)
    else if |name| > MaxTagName then Aborted(c, ValueTooLong("tag", name))
    else Done(c.(tags := c.tags + {name}))
  }

  /** `TableOfContent.objects.get_or_create(content=..., order=..., slug=...)`: found by all
      three columns, or created, which fails when another row has the slug. */
  function GetOrCreateToc(c: Catalog, e: TocEntry): (r: Outcome)
    ensures r.catalog.posts == c.posts && r.catalog.tags == c.tags
    ensures r.Aborted? <==>
      e !in c.tocs && (|e.content| > MaxTocContent || |e.slug| > MaxTocSlug || e.slug in TocSlugs(c))
    ensures r.Done? ==> r.catalog.tocs == c.tocs + {e}
    ensures r.Aborted? ==> r.catalog == c
  {
    if e in c.tocs then Done(c)
    else if |e.content| > MaxTocContent then Aborted(c, ValueTooLong("toc content", e.content))
    else if |e.slug| > MaxTocSlug then Aborted(c, ValueTooLong("toc slug", e.slug))
    else if e.slug in TocSlugs(c) then Aborted(c, SlugTaken(e.slug))
    else Done(c.(tocs := c.tocs + {e}))
  }

  /** `post.tags.add(...)` and `post.toc.add(...)`: relations are sets. */
  function AttachTag(c: Catalog, key: string, name: string): (r: Catalog)
    requires key in c.posts
    ensures r.tags == c.tags && r.tocs == c.tocs && r.posts.Keys == c.posts.Keys
    ensures r.posts[key].tags == c.posts[key].tags + {name}
  {
    c.(posts := c.posts[key := c.posts[key].(tags := c.posts[key].tags + {name})])
  }

  function AttachToc(c: Catalog, key: string, e: TocEntry): (r: Catalog)
    requires key in c.posts
    ensures r.tags == c.tags && r.tocs == c.tocs && r.posts.Keys == c.posts.Keys
    ensures r.posts[key].toc == c.posts[key].toc + {e}
  {
    c.(posts := c.posts[key := c.posts[key].(toc := c.posts[key].toc + {e})])
  }

  /** `post.toc.clear()` and `post.tags.clear()`. */
  function ClearRelations(c: Catalog, key: string): Catalog
    requires key in c.posts
  {
    c.(posts := c.posts[key := c.posts[key].(tags := {}, toc := {})])
  }

  /** The loop that get-or-creates each tag and adds it to the post. */
  function AddTags(c: Catalog, key: string, names: seq<string>): (r: Outcome)
    requires key in c.posts
    ensures r.catalog.posts.Keys == c.posts.Keys && r.catalog.tocs == c.tocs
    ensures c.tags <= r.catalog.tags
    decreases |names|
  {
    if names == [] then Done(c)
    else match GetOrCreateTag(c, names[0])
      case Aborted(c1, e) => Aborted(c1, e)
      case Done(c1) => AddTags(AttachTag(c1, key, names[0]), key, names[1..])
  }

  /** The table-of-contents entry a heading gets at a 1-based position. */
  function EntryFor(slugify: Slugifier, text: string, order: int): TocEntry {
    TocEntry(text, order, slugify(text))
  }

  /** The loop that get-or-creates an entry per heading, numbering them from `order`, and
      adds each to the post. */
  function AddTocs(slugify: Slugifier, c: Catalog, key: string, texts: seq<string>, order: int): (r: Outcome)
    requires key in c.posts
    ensures r.catalog.posts.Keys == c.posts.Keys && r.catalog.tags == c.tags
    ensures c.tocs <= r.catalog.tocs
    decreases |texts|
  {
    if texts == [] then Done(c)
    else
      var e := EntryFor(slugify, texts[0], order);
      match GetOrCreateToc(c, e)
      case Aborted(c1, err) => Aborted(c1, err)
      case Done(c1) => AddTocs(slugify, AttachToc(c1, key, e), key, texts[1..], order + 1)
  }

  /** `BlogPost.objects.filter(slug__in=slugs).delete()`. */
  function DeletePosts(c: Catalog, slugs: set<string>): (r: Catalog)
    ensures r.tags == c.tags && r.tocs == c.tocs
    ensures forall k :: k in r.posts <==> k in c.posts && c.posts[k].slug !in slugs
    ensures forall k :: k in r.posts ==> r.posts[k] == c.posts[k]
  {
    c.(posts := map k | k in c.posts && c.posts[k].slug !in slugs :: c.posts[k])
  }

  /** The tag names some post refers to. */
  function Referenced(c: Catalog): set<string> {
    set k, t | k in c.posts && t in c.posts[k].tags :: t
  }

  /** `Tag.objects.filter(blogpost=None).delete()`. */
  function DeleteOrphanTags(c: Catalog): (r: Catalog)
    ensures r.posts == c.posts && r.tocs == c.tocs
    ensures forall t :: t in r.tags <==> t in c.tags && exists k :: k in c.posts && t in c.posts[k].tags
  {
    c.(tags := c.tags * Referenced(c))
  }

  // Sequences as the sets the relations hold.

  function SetOf<T(!new)>(xs: seq<T>): (r: set<T>)
    ensures |r| <= |xs|
  {
    if xs == [] then {} else {xs[0]} + SetOf(xs[1..])
  }

  /** The set of a list holds exactly the list's elements. */
  lemma {:induction false} SetOfMembers<T(!new)>(xs: seq<T>)
    ensures forall x :: x in SetOf(xs) <==> x in xs
    decreases |xs|
  {
    if xs != [] {
      SetOfMembers(xs[1..]);
      assert xs == [xs[0]] + xs[1..];
    }
  }

  predicate Distinct<T(==)>(xs: seq<T>) {
    forall i, j :: 0 <= i < j < |xs| ==> xs[i] != xs[j]
  }

  /** A list with no repeated element has as many elements as its set. */
  lemma {:induction false} SetOfDistinct<T(!new)>(xs: seq<T>)
    requires Distinct(xs)
    ensures |SetOf(xs)| == |xs|
    decreases |xs|
  {
    if xs != [] {
      SetOfDistinct(xs[1..]);
      SetOfMembers(xs[1..]);
      assert xs[0] !in SetOf(xs[1..]) by {
        forall i | 0 <= i < |xs[1..]| ensures xs[1..][i] != xs[0] {
          assert xs[1..][i] == xs[i + 1];
        }
      }
    }
  }

  /** A list with a repeated element has fewer elements in its set. */
  lemma {:induction false} SetOfRepeated<T(!new)>(xs: seq<T>, i: nat, j: nat)
    requires i < j < |xs| && xs[i] == xs[j]
    ensures |SetOf(xs)| < |xs|
    decreases |xs|
  {
    if i == 0 {
      assert xs[1..][j - 1] == xs[0];
      SetOfMembers(xs[1..]);
      assert SetOf(xs) == SetOf(xs[1..]);
    } else {
      assert xs[1..][i - 1] == xs[i] && xs[1..][j - 1] == xs[j];
      SetOfRepeated(xs[1..], i - 1, j - 1);
    }
  }

  /** The table-of-contents rows for a list of headings numbered from `order`. */
  function TocEntries(slugify: Slugifier, texts: seq<string>, order: int): (es: seq<TocEntry>)
    ensures |es| == |texts|
    ensures forall i :: 0 <= i < |texts| ==> es[i] == EntryFor(slugify, texts[i], order + i)
    decreases |texts|
  {
    if texts == [] then [] else [EntryFor(slugify, texts[0], order)] + TocEntries(slugify, texts[1..], order + 1)
  }

  /** Rows numbered by position are all different, however often a heading repeats. */
  lemma TocEntriesDistinct(slugify: Slugifier, texts: seq<string>, order: int)
    ensures Distinct(TocEntries(slugify, texts, order))
    ensures |SetOf(TocEntries(slugify, texts, order))| == |texts|
  {
    var es := TocEntries(slugify, texts, order);
    assert forall i, j :: 0 <= i < j < |es| ==> es[i].order != es[j].order;
    SetOfDistinct(es);
  }

  // What one call does.

  /** A save stores the row under the slug of its title, whatever slug it had; a renamed
      row therefore moves. Its relations move with it and no other row changes. */
  lemma SaveMoves(slugify: Slugifier, c: Catalog, key: Option<string>, f: Fields)
    requires Save(slugify, c, key, f).Done?
    ensures var s := slugify(f.title);
      var r := Save(slugify, c, key, f).catalog;
      && s in r.posts && r.posts[s].slug == s && r.posts[s].fields == f
      && (key.Some? && key.value in c.posts ==>
            r.posts[s].tags == c.posts[key.value].tags && r.posts[s].toc == c.posts[key.value].toc)
      && (key.None? ==> r.posts[s].tags == {} && r.posts[s].toc == {})
      && (forall k :: k in r.posts && k != s ==> k in c.posts && r.posts[k] == c.posts[k])
      && (forall k :: k in c.posts && k != s && key != Some(k) ==> k in r.posts)
      && (key.Some? && key.value != s ==> key.value !in r.posts)
  {
  }

  /** A save fails exactly when the title or its slug is too long, or another row has the
      slug; a failed save writes nothing. */
  lemma SaveFails(slugify: Slugifier, c: Catalog, key: Option<string>, f: Fields)
    ensures var s := slugify(f.title);
      Save(slugify, c, key, f).Aborted? <==>
        |f.title| > MaxTitle || |s| > MaxPostSlug || (s in c.posts && key != Some(s))
    ensures Save(slugify, c, key, f).Aborted? ==> Save(slugify, c, key, f).catalog == c
  {
  }

  /** After the tag loop the post's tags are its earlier tags and the listed names; nothing
      else changes. */
  lemma {:induction false} AddTagsDone(c: Catalog, key: string, names: seq<string>)
    requires key in c.posts
    requires AddTags(c, key, names).Done?
    ensures var r := AddTags(c, key, names).catalog;
      && r.posts[key] == c.posts[key].(tags := c.posts[key].tags + SetOf(names))
      && r.tags == c.tags + SetOf(names)
      && (forall k :: k in c.posts && k != key ==> r.posts[k] == c.posts[k])
    decreases |names|
  {
    if names != [] {
      var c1 := GetOrCreateTag(c, names[0]).catalog;
      AddTagsDone(AttachTag(c1, key, names[0]), key, names[1..]);
    }
  }

  /** The tag loop fails only on a new name longer than a tag name may be. */
  lemma {:induction false} AddTagsFails(c: Catalog, key: string, names: seq<string>)
    requires key in c.posts
    ensures AddTags(c, key, names).Aborted? <==>
      exists i :: 0 <= i < |names| && names[i] !in c.tags && |names[i]| > MaxTagName
    decreases |names|
  {
    if names != [] {
      var c1 := GetOrCreateTag(c, names[0]).catalog;
      if GetOrCreateTag(c, names[0]).Done? {
        AddTagsFails(AttachTag(c1, key, names[0]), key, names[1..]);
        assert c1.tags == c.tags || c1.tags == c.tags + {names[0]};
        assert forall i :: 1 <= i < |names| ==> names[i] == names[1..][i - 1];
        if exists i :: 0 <= i < |names[1..]| && names[1..][i] !in c1.tags && |names[1..][i]| > MaxTagName {
          var i :| 0 <= i < |names[1..]| && names[1..][i] !in c1.tags && |names[1..][i]| > MaxTagName;
          assert names[i + 1] !in c.tags;
        }
      }
    }
  }

  /** After the table-of-contents loop the post holds its earlier rows and one row per
      heading, numbered by position from `order`; nothing else changes. */
  lemma {:induction false} AddTocsDone(slugify: Slugifier, c: Catalog, key: string, texts: seq<string>, order: int)
    requires key in c.posts
    requires AddTocs(slugify, c, key, texts, order).Done?
    ensures var r := AddTocs(slugify, c, key, texts, order).catalog;
      && r.posts[key] == c.posts[key].(toc := c.posts[key].toc + SetOf(TocEntries(slugify, texts, order)))
      && r.tocs == c.tocs + SetOf(TocEntries(slugify, texts, order))
      && (forall k :: k in c.posts && k != key ==> r.posts[k] == c.posts[k])
    decreases |texts|
  {
    if texts != [] {
      var e := EntryFor(slugify, texts[0], order);
      var c1 := GetOrCreateToc(c, e).catalog;
      AddTocsCons(slugify, c, key, texts, order);
      AddTocsDone(slugify, AttachToc(c1, key, e), key, texts[1..], order + 1);
      assert TocEntries(slugify, texts, order) == [e] + TocEntries(slugify, texts[1..], order + 1);
    }
  }

  /** The table-of-contents loop that goes through, as one update of the catalog. */
  lemma AddTocsResult(slugify: Slugifier, c: Catalog, key: string, texts: seq<string>, order: int)
    requires key in c.posts
    requires AddTocs(slugify, c, key, texts, order).Done?
    ensures var es := SetOf(TocEntries(slugify, texts, order));
      AddTocs(slugify, c, key, texts, order)
        == Done(c.(posts := c.posts[key := c.posts[key].(toc := c.posts[key].toc + es)], tocs := c.tocs + es))
  {
    AddTocsDone(slugify, c, key, texts, order);
    var es := SetOf(TocEntries(slugify, texts, order));
    var r := AddTocs(slugify, c, key, texts, order).catalog;
    var m := c.posts[key := c.posts[key].(toc := c.posts[key].toc + es)];
    assert r.posts.Keys == m.Keys;
    forall k | k in m ensures r.posts[k] == m[k] {
      if k != key {
        assert r.posts[k] == c.posts[k];
      }
    }
    assert r.posts == m;
  }

  /** The tag loop that goes through, as one update of the catalog. */
  lemma AddTagsResult(c: Catalog, key: string, names: seq<string>)
    requires key in c.posts
    requires AddTags(c, key, names).Done?
    ensures AddTags(c, key, names)
         == Done(c.(posts := c.posts[key := c.posts[key].(tags := c.posts[key].tags + SetOf(names))],
                    tags := c.tags + SetOf(names)))
  {
    AddTagsDone(c, key, names);
    var r := AddTags(c, key, names).catalog;
    var m := c.posts[key := c.posts[key].(tags := c.posts[key].tags + SetOf(names))];
    assert r.posts.Keys == m.Keys;
    forall k | k in m ensures r.posts[k] == m[k] {
      if k != key {
        assert r.posts[k] == c.posts[k];
      }
    }
    assert r.posts == m;
  }

  /** One turn of the table-of-contents loop. */
  lemma AddTocsCons(slugify: Slugifier, c: Catalog, key: string, texts: seq<string>, order: int)
    requires key in c.posts && texts != []
    ensures var e := EntryFor(slugify, texts[0], order);
      var r := GetOrCreateToc(c, e);
      AddTocs(slugify, c, key, texts, order) ==
        if r.Aborted? then r else AddTocs(slugify, AttachToc(r.catalog, key, e), key, texts[1..], order + 1)
  {
  }

  /** Two headings with the same slug at different positions cannot both get a row: the
      second `get_or_create` misses (the order differs) and the insert hits the unique slug. */
  lemma {:induction false} DuplicateHeadingSlugAborts(slugify: Slugifier, c: Catalog, key: string, texts: seq<string>, order: int, i: nat, j: nat)
    requires key in c.posts && TocSlugsUnique(c)
    requires i < j < |texts| && slugify(texts[i]) == slugify(texts[j])
    ensures AddTocs(slugify, c, key, texts, order).Aborted?
    decreases i, 1
  {
    if i == 0 {
      FirstHeadingCollides(slugify, c, key, texts, order, j);
    } else {
      DuplicateLaterAborts(slugify, c, key, texts, order, i, j);
    }
  }

  /** The first of the two headings is not the first heading: the loop fails there, or
      goes on to the rest with both headings still ahead. */
  lemma {:induction false} DuplicateLaterAborts(slugify: Slugifier, c: Catalog, key: string, texts: seq<string>, order: int, i: nat, j: nat)
    requires key in c.posts && TocSlugsUnique(c)
    requires 0 < i < j < |texts| && slugify(texts[i]) == slugify(texts[j])
    ensures AddTocs(slugify, c, key, texts, order).Aborted?
    decreases i, 0
  {
    if GetOrCreateToc(c, EntryFor(slugify, texts[0], order)).Aborted? {
      AddTocsCons(slugify, c, key, texts, order);
    } else {
      var c1 := AddTocsNext(slugify, c, key, texts, order);
      DuplicateInRest(slugify, c1, key, texts, order, i, j);
    }
  }

  /** The two headings, one place further on in the rest of the list. */
  lemma {:induction false} DuplicateInRest(slugify: Slugifier, c1: Catalog, key: string, texts: seq<string>, order: int, i: nat, j: nat)
    requires key in c1.posts && TocSlugsUnique(c1)
    requires 0 < i < j < |texts| && slugify(texts[i]) == slugify(texts[j])
    ensures AddTocs(slugify, c1, key, texts[1..], order + 1).Aborted?
    decreases i - 1, 2
  {
    var rest := texts[1..];
    assert rest[j - 1] == texts[j] && rest[i - 1] == texts[i];
    DuplicateHeadingSlugAborts(slugify, c1, key, rest, order + 1, i - 1, j - 1);
  }

  /** The first heading's slug comes back at heading `j`: the loop aborts. */
  lemma FirstHeadingCollides(slugify: Slugifier, c: Catalog, key: string, texts: seq<string>, order: int, j: nat)
    requires key in c.posts && TocSlugsUnique(c)
    requires 0 < j < |texts| && slugify(texts[0]) == slugify(texts[j])
    ensures AddTocs(slugify, c, key, texts, order).Aborted?
  {
    var e := EntryFor(slugify, texts[0], order);
    if GetOrCreateToc(c, e).Aborted? {
      AddTocsCons(slugify, c, key, texts, order);
    } else {
      var c1 := AddTocsNext(slugify, c, key, texts, order);
      var rest := texts[1..];
      assert rest[j - 1] == texts[j];
      assert e.order != order + 1 + (j - 1);
      SlugCollides(slugify, c1, key, rest, order + 1, j - 1, e);
    }
  }

  /** A row other than heading `j`'s own entry already holds that heading's slug: the loop
      aborts, at heading `j` or earlier. The row may belong to any post and carry any
      position. */
  lemma {:induction false} SlugCollides(slugify: Slugifier, c: Catalog, key: string, texts: seq<string>, order: int, j: nat, e0: TocEntry)
    requires key in c.posts && TocSlugsUnique(c)
    requires j < |texts| && e0 in c.tocs && e0.slug == slugify(texts[j])
    requires e0 != EntryFor(slugify, texts[j], order + j)
    ensures AddTocs(slugify, c, key, texts, order).Aborted?
    decreases j, 1
  {
    if j == 0 {
      TocCollides(c, EntryFor(slugify, texts[0], order), e0);
      AddTocsCons(slugify, c, key, texts, order);
    } else {
      SlugCollidesLater(slugify, c, key, texts, order, j, e0);
    }
  }

  /** The colliding heading is not the first: the loop fails at the first heading, or goes
      on to the rest with the row still there. */
  lemma {:induction false} SlugCollidesLater(slugify: Slugifier, c: Catalog, key: string, texts: seq<string>, order: int, j: nat, e0: TocEntry)
    requires key in c.posts && TocSlugsUnique(c)
    requires 0 < j < |texts| && e0 in c.tocs && e0.slug == slugify(texts[j])
    requires e0 != EntryFor(slugify, texts[j], order + j)
    ensures AddTocs(slugify, c, key, texts, order).Aborted?
    decreases j, 0
  {
    if GetOrCreateToc(c, EntryFor(slugify, texts[0], order)).Aborted? {
      AddTocsCons(slugify, c, key, texts, order);
    } else {
      var rest := texts[1..];
      assert rest[j - 1] == texts[j];
      assert order + 1 + (j - 1) == order + j;
      var c1 := AddTocsNext(slugify, c, key, texts, order);
      SlugCollides(slugify, c1, key, rest, order + 1, j - 1, e0);
    }
  }

  /** Another row holds the entry's slug: get-or-create misses it and the insert fails. */
  lemma TocCollides(c: Catalog, e: TocEntry, e0: TocEntry)
    requires TocSlugsUnique(c) && e0 in c.tocs && e0.slug == e.slug && e0 != e
    ensures GetOrCreateToc(c, e).Aborted?
  {
    assert e !in c.tocs;
    assert e.slug in TocSlugs(c);
  }

  /** The catalog after a successful first turn of the table-of-contents loop. */
  lemma AddTocsNext(slugify: Slugifier, c: Catalog, key: string, texts: seq<string>, order: int) returns (c1: Catalog)
    requires key in c.posts && TocSlugsUnique(c) && texts != []
    requires GetOrCreateToc(c, EntryFor(slugify, texts[0], order)).Done?
    ensures key in c1.posts && TocSlugsUnique(c1) && c.tocs <= c1.tocs
    ensures EntryFor(slugify, texts[0], order) in c1.tocs
    ensures AddTocs(slugify, c, key, texts, order) == AddTocs(slugify, c1, key, texts[1..], order + 1)
  {
    var e := EntryFor(slugify, texts[0], order);
    GetOrCreateTocUnique(c, e);
    AddTocsCons(slugify, c, key, texts, order);
    c1 := AttachToc(GetOrCreateToc(c, e).catalog, key, e);
  }

  // The schema's invariants survive every operation, failed ones included.

  lemma SaveValid(slugify: Slugifier, c: Catalog, key: Option<string>, f: Fields)
    requires Valid(slugify, c)
    ensures Valid(slugify, Save(slugify, c, key, f).catalog)
  {
  }

  lemma GetOrCreateTagValid(slugify: Slugifier, c: Catalog, name: string)
    requires Valid(slugify, c)
    ensures Valid(slugify, GetOrCreateTag(c, name).catalog)
  {
  }

  lemma GetOrCreateTocValid(slugify: Slugifier, c: Catalog, e: TocEntry)
    requires Valid(slugify, c)
    ensures Valid(slugify, GetOrCreateToc(c, e).catalog)
  {
    GetOrCreateTocUnique(c, e);
  }

  /** A created row's slug was free, so slugs stay unique. */
  lemma GetOrCreateTocUnique(c: Catalog, e: TocEntry)
    requires TocSlugsUnique(c)
    ensures TocSlugsUnique(GetOrCreateToc(c, e).catalog)
  {
    var r := GetOrCreateToc(c, e).catalog;
    if e !in c.tocs && r != c {
      assert e.slug !in TocSlugs(c);
      assert forall e1 :: e1 in c.tocs ==> e1.slug in TocSlugs(c);
    }
  }

  lemma AttachValid(slugify: Slugifier, c: Catalog, key: string, name: string, e: TocEntry)
    requires Valid(slugify, c) && key in c.posts
    ensures name in c.tags ==> Valid(slugify, AttachTag(c, key, name))
    ensures e in c.tocs ==> Valid(slugify, AttachToc(c, key, e))
    ensures Valid(slugify, ClearRelations(c, key))
  {
  }

  lemma {:induction false} AddTagsValid(slugify: Slugifier, c: Catalog, key: string, names: seq<string>)
    requires Valid(slugify, c) && key in c.posts
    ensures Valid(slugify, AddTags(c, key, names).catalog)
    decreases |names|
  {
    if names != [] {
      var r := GetOrCreateTag(c, names[0]);
      GetOrCreateTagValid(slugify, c, names[0]);
      if r.Done? {
        AttachValid(slugify, r.catalog, key, names[0], TocEntry("", 0, ""));
        AddTagsValid(slugify, AttachTag(r.catalog, key, names[0]), key, names[1..]);
      }
    }
  }

  lemma {:induction false} AddTocsValid(slugify: Slugifier, c: Catalog, key: string, texts: seq<string>, order: int)
    requires Valid(slugify, c) && key in c.posts
    ensures Valid(slugify, AddTocs(slugify, c, key, texts, order).catalog)
    decreases |texts|
  {
    if texts != [] {
      var e := EntryFor(slugify, texts[0], order);
      var r := GetOrCreateToc(c, e);
      AddTocsCons(slugify, c, key, texts, order);
      GetOrCreateTocValid(slugify, c, e);
      if r.Done? {
        AttachValid(slugify, r.catalog, key, "", e);
        AddTocsValid(slugify, AttachToc(r.catalog, key, e), key, texts[1..], order + 1);
      }
    }
  }

  lemma DeleteValid(slugify: Slugifier, c: Catalog, slugs: set<string>)
    requires Valid(slugify, c)
    ensures Valid(slugify, DeletePosts(c, slugs))
    ensures Valid(slugify, DeleteOrphanTags(c))
  {
    var r := DeleteOrphanTags(c);
    forall k | k in r.posts ensures r.posts[k].tags <= r.tags {
      forall t | t in r.posts[k].tags ensures t in r.tags {
        assert t in Referenced(c);
      }
    }
  }

  /** When every entry is already a row, the table-of-contents loop cannot fail. */
  lemma {:induction false} AddTocsPresent(slugify: Slugifier, c: Catalog, key: string, texts: seq<string>, order: int)
    requires key in c.posts
    requires SetOf(TocEntries(slugify, texts, order)) <= c.tocs
    ensures AddTocs(slugify, c, key, texts, order).Done?
    decreases |texts|
  {
    if texts != [] {
      var e := EntryFor(slugify, texts[0], order);
      AddTocsCons(slugify, c, key, texts, order);
      assert TocEntries(slugify, texts, order)[0] == e;
      assert forall x :: x in TocEntries(slugify, texts[1..], order + 1) ==> x in TocEntries(slugify, texts, order) by {
        assert TocEntries(slugify, texts, order) == [e] + TocEntries(slugify, texts[1..], order + 1);
      }
      AddTocsPresent(slugify, AttachToc(c, key, e), key, texts[1..], order + 1);
    }
  }
}

=== FILE: text.dfy ===
/** Python string primitives the ingestion command relies on: `str.strip`,
    `str.startswith`, `str.split(sep)`, `sep.join`, and the character classes
    `\s` and `\w` of its regular expressions. */
module Text {
  import opened Base

  /** Django's `slugify`, left uninterpreted: every result holds for any such function. */
  type Slugifier = string -> string

  /** Python's `str.isspace`, which is also the class `\s` matches in a str pattern. */
  predicate IsSpace(c: char) {
    || c == ' '
    || ('\t' <= c <= '\r')
    || ('\U{1c}' <= c <= '\U{1f}')
    || c == '\U{85}' || c == '\U{a0}' || c == '\U{1680}'
    || ('\U{2000}' <= c <= '\U{200a}')
    || c == '\U{2028}' || c == '\U{2029}' || c == '\U{202f}' || c == '\U{205f}' || c == '\U{3000}'
  }

  /** The ASCII part of the regular-expression class `\w`. */
  predicate IsWordChar(c: char) {
    ('a' <= c <= 'z') || ('A' <= c <= 'Z') || ('0' <= c <= '9') || c == '_'
  }

  predicate AllSpace(s: string) {
    forall i :: 0 <= i < |s| ==> IsSpace(s[i])
  }

  predicate StartsWith(s: string, prefix: string) {
    |prefix| <= |s| && s[..|prefix|] == prefix
  }

  predicate EndsWith(s: string, suffix: string) {
    |suffix| <= |s| && s[|s| - |suffix|..] == suffix
  }

  /** `pat` occurs in `s` starting at index `i`. */
  predicate OccursAt(s: string, pat: string, i: nat) {
    i + |pat| <= |s| && s[i..i + |pat|] == pat
  }

  /** `s.find(pat, from)`: the leftmost occurrence of `pat` at or after `from`. */
  function FindFrom(s: string, pat: string, from: nat): (r: Option<nat>)
    ensures r.Some? ==> from <= r.value && OccursAt(s, pat, r.value)
    decreases |s| - from
  {
    if from + |pat| > |s| then None
    else if s[from..from + |pat|] == pat then Some(from)
    else FindFrom(s, pat, from + 1)
  }

  /** `find` returns the leftmost occurrence: there is none between `from` and it. */
  lemma {:induction false} FindLeftmost(s: string, pat: string, from: nat)
    ensures var r := FindFrom(s, pat, from);
      forall i: nat :: from <= i && (r.None? || i < r.value) ==> !OccursAt(s, pat, i)
    decreases |s| - from
  {
    if from + |pat| <= |s| && s[from..from + |pat|] != pat {
      FindLeftmost(s, pat, from + 1);
    }
  }

  /** A found occurrence with none before it, from `from` on, is what `find` returns. */
  lemma FindIs(s: string, pat: string, from: nat, k: nat)
    requires from <= k && OccursAt(s, pat, k)
    requires forall i: nat :: from <= i < k ==> !OccursAt(s, pat, i)
    ensures FindFrom(s, pat, from) == Some(k)
    decreases k - from
  {
    if from < k {
      FindIs(s, pat, from + 1, k);
    }
  }

  /** With no occurrence from `from` on, `find` returns nothing. */
  lemma {:induction false} FindNone(s: string, pat: string, from: nat)
    requires forall i: nat :: from <= i ==> !OccursAt(s, pat, i)
    ensures FindFrom(s, pat, from) == None
    decreases |s| - from
  {
    if from + |pat| <= |s| {
      assert !OccursAt(s, pat, from);
      FindNone(s, pat, from + 1);
    }
  }

  /** `s.split(sep)`: cut at every leftmost non-overlapping occurrence of `sep`. */
  function Split(s: string, sep: string): (parts: seq<string>)
    requires sep != []
    ensures |parts| >= 1
    decreases |s|
  {
    match FindFrom(s, sep, 0)
    case None => [s]
    case Some(i) => [s[..i]] + Split(s[i + |sep|..], sep)
  }

  /** `sep.join(parts)`. */
  function Join(parts: seq<string>, sep: string): string
    decreases |parts|
  {
    if |parts| == 0 then ""
    else if |parts| == 1 then parts[0]
    else parts[0] + sep + Join(parts[1..], sep)
  }

  predicate OneLine(s: string) {
    forall i :: 0 <= i < |s| ==> s[i] != '\n'
  }

  /** A line of a document: text without a newline. */
  type Line = s: string | OneLine(s)

  /** `s.split('\n')`: the lines of a document. */
  function Lines(s: string): (lines: seq<Line>)
    ensures |lines| >= 1
    ensures Join(lines, "\n") == s
    ensures |lines| == Count(s, '\n') + 1
  {
    SplitCharHasNoSeparator(s, '\n');
    SplitCount(s, '\n');
    JoinSplit(s, "\n");
    Split(s, "\n")
  }

  /** `s.lstrip()` */
  function TrimLeft(s: string): (r: string)
    ensures |r| <= |s|
    ensures r == [] || !IsSpace(r[0])
    decreases |s|
  {
    if s != [] && IsSpace(s[0]) then TrimLeft(s[1..]) else s
  }

  /** `s.rstrip()` */
  function TrimRight(s: string): (r: string)
    ensures |r| <= |s|
    ensures r == [] || !IsSpace(r[|r| - 1])
    decreases |s|
  {
    if s != [] && IsSpace(s[|s| - 1]) then TrimRight(s[..|s| - 1]) else s
  }

  /** `s.strip()`: drop leading and trailing whitespace. */
  function Strip(s: string): string {
    TrimRight(TrimLeft(s))
  }

  /** What `lstrip` keeps is a suffix of its input. */
  lemma {:induction false} TrimLeftSuffix(s: string)
    ensures TrimLeft(s) == s[|s| - |TrimLeft(s)|..]
    decreases |s|
  {
    if s != [] && IsSpace(s[0]) {
      TrimLeftSuffix(s[1..]);
      assert s[1..][|s| - 1 - |TrimLeft(s)|..] == s[|s| - |TrimLeft(s)|..];
    }
  }

  /** What `rstrip` keeps is a prefix of its input. */
  lemma {:induction false} TrimRightPrefix(s: string)
    ensures TrimRight(s) == s[..|TrimRight(s)|]
    decreases |s|
  {
    if s != [] && IsSpace(s[|s| - 1]) {
      TrimRightPrefix(s[..|s| - 1]);
      assert s[..|s| - 1][..|TrimRight(s)|] == s[..|TrimRight(s)|];
    }
  }

  /** `rstrip` keeps every character up to the last non-whitespace one. */
  lemma {:induction false} TrimRightKeeps(s: string, i: nat)
    requires i < |s| && !IsSpace(s[i])
    ensures i < |TrimRight(s)|
    decreases |s|
  {
    if s != [] && IsSpace(s[|s| - 1]) {
      assert s[..|s| - 1][i] == s[i];
      TrimRightKeeps(s[..|s| - 1], i);
    }
  }

  /** What `lstrip` drops is whitespace. */
  lemma {:induction false} TrimLeftDropsSpace(s: string)
    ensures AllSpace(s[..|s| - |TrimLeft(s)|])
    decreases |s|
  {
    if s != [] && IsSpace(s[0]) {
      var r := TrimLeft(s[1..]);
      TrimLeftDropsSpace(s[1..]);
      assert s[..|s| - |r|] == [s[0]] + s[1..][..|s| - 1 - |r|];
      AllSpaceAppend([s[0]], s[1..][..|s| - 1 - |r|]);
    }
  }

  /** What `rstrip` drops is whitespace. */
  lemma {:induction false} TrimRightDropsSpace(s: string)
    ensures AllSpace(s[|TrimRight(s)|..])
    decreases |s|
  {
    if s != [] && IsSpace(s[|s| - 1]) {
      var p := s[..|s| - 1];
      var r := TrimRight(p);
      TrimRightDropsSpace(p);
      assert s[|r|..] == p[|r|..] + [s[|s| - 1]];
      AllSpaceAppend(p[|r|..], [s[|s| - 1]]);
    }
  }

  /** `strip` leaves nothing exactly when the text is all whitespace. */
  lemma StripEmpty(s: string)
    ensures Strip(s) == [] <==> AllSpace(s)
  {
    var t := TrimLeft(s);
    var r := TrimRight(t);
    TrimLeftSuffix(s);
    TrimRightPrefix(t);
    TrimLeftDropsSpace(s);
    TrimRightDropsSpace(t);
    assert t != [] ==> t[0] == s[|s| - |t|];
    assert s == s[..|s| - |t|] + t;
    assert r == [] ==> t[|r|..] == t;
    AllSpaceAppend(s[..|s| - |t|], t);
  }

  /** What `strip` leaves starts and ends with a non-whitespace character. */
  lemma StripEnds(s: string)
    ensures Strip(s) == [] || (!IsSpace(Strip(s)[0]) && !IsSpace(Strip(s)[|Strip(s)| - 1]))
  {
    var t := TrimLeft(s);
    var r := TrimRight(t);
    TrimRightPrefix(t);
    assert r != [] ==> r[0] == t[0];
  }

  lemma AllSpaceAppend(a: string, b: string)
    ensures AllSpace(a) && AllSpace(b) ==> AllSpace(a + b)
  {
    if AllSpace(a) && AllSpace(b) {
      forall i | 0 <= i < |a + b| ensures IsSpace((a + b)[i]) {
        if i < |a| {
          assert (a + b)[i] == a[i];
        } else {
          assert (a + b)[i] == b[i - |a|];
        }
      }
    }
  }

  /** A string with no whitespace at either end is its own strip. */
  lemma StripClean(s: string)
    requires s != [] ==> !IsSpace(s[0]) && !IsSpace(s[|s| - 1])
    ensures Strip(s) == s
  {
  }

  /** Whitespace padding around a clean string is exactly what `strip` removes. */
  lemma {:induction false} StripPadded(a: string, s: string, b: string)
    requires AllSpace(a) && AllSpace(b)
    requires s != [] && !IsSpace(s[0]) && !IsSpace(s[|s| - 1])
    ensures Strip(a + s + b) == s
  {
    assert a + s + b == a + (s + b);
    TrimLeftPadded(a, s + b);
    TrimRightPadded(s, b);
  }

  lemma {:induction false} TrimLeftPadded(a: string, t: string)
    requires AllSpace(a)
    requires t != [] && !IsSpace(t[0])
    ensures TrimLeft(a + t) == t
    decreases |a|
  {
    if a != [] {
      assert (a + t)[0] == a[0] && IsSpace(a[0]);
      assert (a + t)[1..] == a[1..] + t;
      assert AllSpace(a[1..]) by {
        forall i | 0 <= i < |a[1..]| ensures IsSpace(a[1..][i]) {
          assert a[1..][i] == a[i + 1];
        }
      }
      TrimLeftPadded(a[1..], t);
    } else {
      assert a + t == t;
    }
  }

  lemma {:induction false} TrimRightPadded(t: string, b: string)
    requires AllSpace(b)
    requires t != [] && !IsSpace(t[|t| - 1])
    ensures TrimRight(t + b) == t
    decreases |b|
  {
    if b != [] {
      assert (t + b)[..|t + b| - 1] == t + b[..|b| - 1];
      TrimRightPadded(t, b[..|b| - 1]);
    } else {
      assert t + b == t;
    }
  }

  /** Number of occurrences of `c` in `s`. */
  function Count(s: string, c: char): (n: nat)
    ensures n == 0 <==> c !in s
    ensures n <= |s|
  {
    if s == [] then 0 else (if s[0] == c then 1 else 0) + Count(s[1..], c)
  }

  lemma {:induction false} CountAppend(a: string, b: string, c: char)
    ensures Count(a + b, c) == Count(a, c) + Count(b, c)
    decreases |a|
  {
    if a == [] {
      assert a + b == b;
    } else {
      assert (a + b)[1..] == a[1..] + b;
      CountAppend(a[1..], b, c);
    }
  }

  /** The first occurrence of a one-character separator is its first index in the string. */
  lemma FindChar(s: string, c: char, k: nat)
    requires k < |s| && s[k] == c && c !in s[..k]
    ensures FindFrom(s, [c], 0) == Some(k)
  {
    assert OccursAt(s, [c], k);
    forall j: nat | j < k ensures !OccursAt(s, [c], j) {
      assert s[j] == s[..k][j];
      assert j + 1 <= |s| ==> s[j..j + 1] == [s[j]];
    }
    FindIs(s, [c], 0, k);
  }

  lemma FindCharAbsent(s: string, c: char)
    requires c !in s
    ensures FindFrom(s, [c], 0) == None
  {
    forall j: nat ensures !OccursAt(s, [c], j) {
      assert j < |s| ==> s[j..j + 1] == [s[j]] && s[j] in s;
    }
    FindNone(s, [c], 0);
  }

  /** Before the index `find` returns for one character (or anywhere, if it returns
      nothing), that character does not occur. */
  lemma NoCharBefore(s: string, c: char, n: nat)
    requires n <= |s|
    requires var r := FindFrom(s, [c], 0); if r.Some? then n == r.value else n == |s|
    ensures c !in s[..n]
  {
    FindLeftmost(s, [c], 0);
    forall k | 0 <= k < n ensures s[..n][k] != c {
      assert s[k..k + 1] == [s[k]];
      assert !OccursAt(s, [c], k);
    }
  }

  /** Every piece produced by splitting on one character is free of that character. */
  lemma {:induction false} SplitCharHasNoSeparator(s: string, c: char)
    ensures forall i :: 0 <= i < |Split(s, [c])| ==> c !in Split(s, [c])[i]
    decreases |s|
  {
    match FindFrom(s, [c], 0)
    case None =>
      NoCharBefore(s, c, |s|);
    case Some(i) =>
      NoCharBefore(s, c, i);
      SplitCharHasNoSeparator(s[i + 1..], c);
  }

  /** Joining the pieces of a split gives the original text back. */
  lemma {:induction false} JoinSplit(s: string, sep: string)
    requires sep != []
    ensures Join(Split(s, sep), sep) == s
    decreases |s|
  {
    match FindFrom(s, sep, 0)
    case None =>
    case Some(i) =>
      var rest := s[i + |sep|..];
      JoinSplit(rest, sep);
      JoinCons(s[..i], Split(rest, sep), sep);
      Around(s, sep, i);
  }

  /** A slice of a slice is a slice of the original. */
  lemma SliceShift(s: string, a: nat, b: nat, i: nat, j: nat)
    requires a <= b <= |s| && i <= j <= b - a
    ensures s[a..b][i..j] == s[a + i..a + j]
  {
    forall k | 0 <= k < j - i ensures s[a..b][i..j][k] == s[a + i..a + j][k] {
      assert s[a..b][i..j][k] == s[a..b][i + k] == s[a + i + k];
    }
  }

  /** Joining a piece in front of at least one more puts one separator between them. */
  lemma JoinCons(head: string, tail: seq<string>, sep: string)
    requires |tail| >= 1
    ensures Join([head] + tail, sep) == head + sep + Join(tail, sep)
  {
    assert ([head] + tail)[1..] == tail;
  }

  /** Concatenation regrouped; stated on variables so that callers need not unfold anything. */
  lemma ConcatAssoc(a: string, b: string, c: string)
    ensures a + (b + c) == a + b + c
  {
  }

  /** An occurrence of `pat` at `i` cuts `s` into the text before, `pat`, and the text after. */
  lemma Around(s: string, pat: string, i: nat)
    requires OccursAt(s, pat, i)
    ensures s == s[..i] + pat + s[i + |pat|..]
  {
    assert s == s[..i] + s[i..i + |pat|] + s[i + |pat|..];
  }

  /** Splitting a join on a one-character separator the pieces do not contain
      gives the pieces back. */
  lemma {:induction false} SplitJoin(parts: seq<string>, c: char)
    requires |parts| >= 1
    requires forall i :: 0 <= i < |parts| ==> c !in parts[i]
    ensures Split(Join(parts, [c]), [c]) == parts
    decreases |parts|
  {
    if |parts| == 1 {
      FindCharAbsent(parts[0], c);
    } else {
      var rest := Join(parts[1..], [c]);
      var s := parts[0] + [c] + rest;
      assert s[..|parts[0]|] == parts[0];
      FindChar(s, c, |parts[0]|);
      assert s[|parts[0]| + 1..] == rest;
      SplitJoin(parts[1..], c);
    }
  }

  /** A split on one character yields one piece more than there are separators. */
  lemma {:induction false} SplitCount(s: string, c: char)
    ensures |Split(s, [c])| == Count(s, c) + 1
    decreases |s|
  {
    match FindFrom(s, [c], 0)
    case None =>
      NoCharBefore(s, c, |s|);
    case Some(i) =>
      NoCharBefore(s, c, i);
      assert s[i..i + 1] == [c];
      assert s == s[..i] + [c] + s[i + 1..];
      CountAppend(s[..i] + [c], s[i + 1..], c);
      CountAppend(s[..i], [c], c);
      SplitCount(s[i + 1..], c);
  }

  /** Joining two non-empty lists puts one separator between their joins. */
  lemma {:induction false} JoinAppend(a: seq<string>, b: seq<string>, sep: string)
    requires |a| >= 1 && |b| >= 1
    ensures Join(a + b, sep) == Join(a, sep) + sep + Join(b, sep)
    decreases |a|
  {
    if |a| == 1 {
      assert (a + b)[1..] == b;
    } else {
      assert (a + b)[1..] == a[1..] + b;
      JoinAppend(a[1..], b, sep);
    }
  }

  /** A join contains a character only if a piece or the separator does. */
  lemma {:induction false} JoinAvoids(parts: seq<string>, sep: string, c: char)
    requires c !in sep
    requires forall i :: 0 <= i < |parts| ==> c !in parts[i]
    ensures c !in Join(parts, sep)
    decreases |parts|
  {
    if |parts| > 1 {
      JoinAvoids(parts[1..], sep, c);
    }
  }
}

=== FILE: toc.dfy ===
/** `extract_table_of_contents`: the heading texts of a document, collected line by line
    once two `---` lines (the front-matter fences) have gone by. */
module TableOfContents {
  import opened Base
  import opened Text
  import opened Headings

  /** A line the scan treats as a front-matter fence: `---` once stripped. */
  predicate IsDelimiter(line: string) {
    Strip(line) == "---"
  }

  /** The two flags of the scan and the headings collected so far. */
  datatype ScanState = ScanState(frontMatterStarted: bool, tocStarted: bool, entries: seq<string>)

  /** One iteration of the loop over the lines. */
  function Step(st: ScanState, line: Line): ScanState
  {
    if IsDelimiter(line) then
      if !st.frontMatterStarted then st.(frontMatterStarted := true)
      else if !st.tocStarted then st.(tocStarted := true)
      else st
    else if st.frontMatterStarted && st.tocStarted && StartsWith(line, "##") then
      match HeadingText(line)
      case Some(t) => st.(entries := st.entries + [t])
      case None => st
    else st
  }

  function Run(st: ScanState, lines: seq<Line>): ScanState
    decreases |lines|
  {
    if lines == [] then st else Run(Step(st, lines[0]), lines[1..])
  }

  /** The table of contents of a whole file. */
  function Extract(text: string): seq<string> {
    Run(ScanState(false, false, []), Lines(text)).entries
  }

  // Reference definition: cut the lines after the second fence, then keep the heading
  // text of every heading line among them.

  /** The lines after the `n`-th delimiter line (all lines for `n == 0`; none when the
      lines hold fewer than `n` delimiters). */
  function After(lines: seq<Line>, n: nat): (r: seq<Line>)
    ensures |r| <= |lines| && r == lines[|lines| - |r|..]
    decreases |lines|
  {
    if n == 0 then lines
    else if lines == [] then []
    else if IsDelimiter(lines[0]) then After(lines[1..], n - 1)
    else After(lines[1..], n)
  }

  /** The heading texts of the heading lines, in order, duplicates kept. */
  function HeadingTexts(lines: seq<Line>): seq<string>
    decreases |lines|
  {
    if lines == [] then []
    else
      (match HeadingText(lines[0]) case Some(t) => [t] case None => [])
      + HeadingTexts(lines[1..])
  }

  function DelimiterCount(lines: seq<Line>): nat
    decreases |lines|
  {
    if lines == [] then 0 else (if IsDelimiter(lines[0]) then 1 else 0) + DelimiterCount(lines[1..])
  }

  /** A fence line is never a heading line. */
  lemma DelimiterIsNotHeading(line: Line)
    requires IsDelimiter(line)
    ensures HeadingText(line).None?
  {
    StripKeepsHash(line);
  }

  /** A line starting with `#` still starts with it once stripped. */
  lemma StripKeepsHash(line: string)
    ensures |line| > 0 && line[0] == '#' ==> Strip(line) != [] && Strip(line)[0] == '#'
  {
    if |line| > 0 && line[0] == '#' {
      assert TrimLeft(line) == line;
      TrimRightPrefix(line);
      TrimRightKeeps(line, 0);
      assert TrimRight(line)[0] == line[0];
    }
  }

  /** The number of fences still to pass before headings are collected. */
  function Pending(st: ScanState): nat {
    if st.tocStarted then 0 else if st.frontMatterStarted then 1 else 2
  }

  predicate Reachable(st: ScanState) {
    st.tocStarted ==> st.frontMatterStarted
  }

  function LineEntries(line: Line): seq<string>
  {
    match HeadingText(line) case Some(t) => [t] case None => []
  }

  lemma HeadingTextsOne(line: Line)
    ensures HeadingTexts([line]) == LineEntries(line)
  {
    assert [line][1..] == [];
  }

  /** Once both fences have passed, one line adds its heading text, if it has one. */
  lemma StepBody(st: ScanState, line: Line)
    requires st.frontMatterStarted && st.tocStarted
    ensures Step(st, line) == st.(entries := st.entries + LineEntries(line))
  {
    if IsDelimiter(line) {
      DelimiterIsNotHeading(line);
      assert Step(st, line) == st;
    } else {
      assert Step(st, line) == st.(entries := st.entries + LineEntries(line));
    }
  }

  lemma HeadingTextsCons(lines: seq<Line>)
    requires lines != []
    ensures HeadingTexts(lines) == LineEntries(lines[0]) + HeadingTexts(lines[1..])
  {
  }

  lemma RunCons(st: ScanState, lines: seq<Line>)
    requires lines != []
    ensures Run(st, lines) == Run(Step(st, lines[0]), lines[1..])
  {
  }

  /** Once both fences have passed, the loop collects the heading text of every line. */
  lemma {:induction false} RunBody(st: ScanState, lines: seq<Line>)
    requires st.frontMatterStarted && st.tocStarted
    ensures Run(st, lines).entries == st.entries + HeadingTexts(lines)
    decreases |lines|
  {
    if lines != [] {
      var next := st.(entries := st.entries + LineEntries(lines[0]));
      RunCons(st, lines);
      StepBody(st, lines[0]);
      RunBody(next, lines[1..]);
      HeadingTextsCons(lines);
    }
  }

  /** Before the second fence, a line only ever advances the flags. */
  lemma StepSkips(st: ScanState, line: Line)
    requires Reachable(st) && !st.tocStarted
    ensures Reachable(Step(st, line)) && Step(st, line).entries == st.entries
    ensures Pending(Step(st, line)) == if IsDelimiter(line) then Pending(st) - 1 else Pending(st)
  {
  }

  /** Before a fence, the loop skips lines until the fence, then goes on past it. */
  lemma {:induction false} RunSkips(st: ScanState, lines: seq<Line>)
    requires Reachable(st) && !st.tocStarted
    ensures Run(st, lines).entries == st.entries + HeadingTexts(After(lines, Pending(st)))
    decreases |lines|
  {
    if lines != [] {
      var next := Step(st, lines[0]);
      RunCons(st, lines);
      StepSkips(st, lines[0]);
      assert After(lines, Pending(st)) == After(lines[1..], Pending(next));
      if next.tocStarted {
        RunBody(next, lines[1..]);
      } else {
        RunSkips(next, lines[1..]);
      }
    }
  }

  /** The table of contents is the heading texts of the lines after the second fence. */
  lemma ExtractIsHeadingsAfterFences(text: string)
    ensures Extract(text) == HeadingTexts(After(Lines(text), 2))
  {
    RunSkips(ScanState(false, false, []), Lines(text));
  }

  /** After the `n`-th fence at index `j` come exactly the lines after index `j`. */
  lemma {:induction false} AfterFence(lines: seq<Line>, n: nat, j: nat)
    requires n >= 1 && j < |lines| && IsDelimiter(lines[j])
    requires DelimiterCount(lines[..j]) == n - 1
    ensures After(lines, n) == lines[j + 1..]
    decreases j
  {
    if j > 0 {
      assert lines[..j] == [lines[0]] + lines[1..][..j - 1];
      assert DelimiterCount(lines[..j]) == (if IsDelimiter(lines[0]) then 1 else 0) + DelimiterCount(lines[1..][..j - 1]);
      AfterFence(lines[1..], if IsDelimiter(lines[0]) then n - 1 else n, j - 1);
      assert lines[1..][j..] == lines[j + 1..];
    }
  }

  /** Too few fences: nothing follows the `n`-th one. */
  lemma {:induction false} AfterTooFew(lines: seq<Line>, n: nat)
    requires n > DelimiterCount(lines)
    ensures After(lines, n) == []
    decreases |lines|
  {
    if lines != [] {
      AfterTooFew(lines[1..], if IsDelimiter(lines[0]) then n - 1 else n);
    }
  }

  /** With the second fence at line `j`, the table of contents is the heading text of every
      heading line after it, in order; nothing at or before line `j` is collected. */
  lemma ExtractAfterSecondFence(text: string, j: nat)
    requires j < |Lines(text)| && IsDelimiter(Lines(text)[j])
    requires DelimiterCount(Lines(text)[..j]) == 1
    ensures Extract(text) == HeadingTexts(Lines(text)[j + 1..])
  {
    ExtractIsHeadingsAfterFences(text);
    AfterFence(Lines(text), 2, j);
  }

  /** A line that starts with neither whitespace nor `-` is not a fence. */
  lemma NotDelimiter(line: string)
    requires line != [] && !IsSpace(line[0]) && line[0] != '-'
    ensures !IsDelimiter(line)
  {
    assert TrimLeft(line) == line;
    TrimRightPrefix(line);
    TrimRightKeeps(line, 0);
    assert Strip(line)[0] == line[0];
  }

  lemma {:induction false} NoDelimiters(lines: seq<Line>)
    requires forall i :: 0 <= i < |lines| ==> !IsDelimiter(lines[i])
    ensures DelimiterCount(lines) == 0
    decreases |lines|
  {
    if lines != [] {
      assert forall i :: 0 <= i < |lines| - 1 ==> lines[1..][i] == lines[i + 1];
      NoDelimiters(lines[1..]);
    }
  }

  /** The heading on line `j` is entry `n` of the table of contents (counting from 0), where
      `n` is the number of heading lines before it. */
  lemma {:induction false} HeadingTextsAt(lines: seq<Line>, j: nat)
    requires j < |lines| && HeadingText(lines[j]).Some?
    ensures var n := |HeadingTexts(lines[..j])|;
      n < |HeadingTexts(lines)| && HeadingTexts(lines)[n] == HeadingText(lines[j]).value
    decreases j
  {
    HeadingTextsCons(lines);
    if j == 0 {
      assert lines[..0] == [];
    } else {
      HeadingTextsAt(lines[1..], j - 1);
      assert lines[1..][j - 1] == lines[j];
      assert lines[..j][0] == lines[0] && lines[..j][1..] == lines[1..][..j - 1];
      HeadingTextsCons(lines[..j]);
    }
  }

  /** A document made of a fence, lines that are not fences, a fence and a body has the
      heading texts of the body as its table of contents. */
  lemma ExtractAfterHeader(text: string, header: seq<string>, body: seq<Line>)
    requires Lines(text) == ["---"] + header + ["---"] + body
    requires forall i :: 0 <= i < |header| ==> !IsDelimiter(header[i])
    ensures Extract(text) == HeadingTexts(body)
  {
    var all := Lines(text);
    var k := |header| + 1;
    assert IsDelimiter("---") by {
      StripClean("---");
    }
    assert DelimiterCount(all[..k]) == 1 by {
      assert forall i :: 0 <= i < k - 1 ==> all[1..k][i] == header[i];
      NoDelimiters(all[1..k]);
      assert all[..k][0] == "---" && all[..k][1..] == all[1..k];
    }
    assert all[k] == "---";
    ExtractAfterSecondFence(text, k);
    assert all[k + 1..] == body;
  }

  /** A document with fewer than two fence lines has an empty table of contents. */
  lemma ExtractWithoutFences(text: string)
    requires DelimiterCount(Lines(text)) < 2
    ensures Extract(text) == []
  {
    ExtractIsHeadingsAfterFences(text);
    AfterTooFew(Lines(text), 2);
  }

  /** `## Intro` is collected like any other heading. */
  lemma IntroIsAnEntry()
    ensures HeadingTexts(["## Intro"]) == ["Intro"]
  {
    var l: Line := IntroLine();
    assert [l][1..] == [];
    assert HeadingTexts([l]) == ["Intro"] + HeadingTexts([]);
  }

  /** The `## Intro` line, with the heading text it carries. */
  lemma IntroLine() returns (l: Line)
    ensures l == "## Intro" && HeadingText(l) == Some("Intro")
  {
    HeadingTextOf(" ", "Intro");
    assert "##" + " " + "Intro" == "## Intro";
    l := "## Intro";
  }
}
